=== FILE: README.md ===
# Flappy Bird game rules in Dafny

This project models the game-rule engine of a browser Flappy Bird clone. The
DOM, the timers and the audio are stripped away. The repository carries two
editions of the engine, each with its own constants and rules. Each one is
modelled as pure step functions over an immutable state record:

- `blog_game.dfy` (module `BlogGame`) models `blog-version-js.js`. It covers:
  - a jump cooldown of 100 ms, with each accepted jump lifting the bird by 50 units;
  - a constant sink of `gravity` per loop tick;
  - floor and ceiling checks taken from the element boxes;
  - a per-pair `scored` flag;
  - a ramp every 15 points: speed +0.03 with no cap, and gap −1 while the gap is above 100;
  - a movement timer per obstacle, which removes the pair at x ≤ −70.
- `app_game.dfy` (module `AppGame`) models `app.js`. It covers:
  - a velocity set to −8 by a jump, with +0.5 added to it every tick (see below for which way that points);
  - floor and ceiling checks on the logical height (`birdY <= 0 || birdY >= 380`);
  - a `passed` flag per pair;
  - removal of pairs at x < −70, which scores only if the pair has not passed;
  - a ramp every 10 points: speed +0.2 capped at 4, and gap −2 with a floor of 100.
- `geometry.dfy` (module `Geometry`) holds the element boxes, the strict
  overlap test, and the conversion into container coordinates.
- `common.dfy` (module `Common`) holds what both editions share:
  - `Option`;
  - min and max;
  - the best-score rule, `max(prev, score)` with "new record" iff `score > prev`;
  - the scaled random draw.

Inputs replace the browser. The element boxes a tick reads
(`getBoundingClientRect`) arrive as a `Frame`. The container's offset size and
the ground's height arrive as a `SpawnEnv`, the current time in milliseconds as
a jump input's `now`, and `Math.random()` as a real in [0, 1). Every timer
firing is an explicit `Event`. `Run` folds a sequence of events over the state,
and `Ticks` folds game-loop ticks alone.

Both editions behave in ways a reader may not expect, and the model proves these
behaviours rather than correcting them:

- **`app.js`: a pair never scores while the bird stays put.** A pair scores
  when it is spliced out at x < −70, but only if its `passed` flag is still
  false (app.js:279). `checkCollision` sets that flag as soon as the pair is
  behind the bird (app.js:366-367), and that happens long before the pair
  reaches x < −70. Take a bird whose left edge `b` satisfies
  `gameSpeed <= b <= 470`, with every frame reporting all pairs. In that case
  no pair ever scores (`AppGame.PassedPairsNeverScore`).
- **`app.js`: the acceleration points up.** `birdY` is written to the
  bird's CSS `bottom` offset (app.js:253), so a larger `birdY` is higher on
  screen. The +0.5 added to the velocity every tick (app.js:249-250)
  therefore pushes the bird up, and a jump's velocity of −8 (app.js:232)
  sends it down. The model keeps the source's arithmetic and calls the
  constant `TickAcceleration`.
- **`app.js`: the ramp carries over.** `startGame` does not reset `gameSpeed`
  or `gap`, so the ramp reached in one run carries over into the next.
- **`blog-version-js.js`: stale pairs survive a return to the menu.** Suppose
  that after a game over the player goes to the main menu and starts again.
  The earlier pairs stay in `activeObstacles` with their timers gone
  (assuming each timer fired once after the game over, as described under
  "## Left out"). They stay at the front of the field and never move or
  leave, and the new run still tests collisions and scoring
  against them (`BlogGame.StaleObstaclesSurviveMenuStart`).

## Model

| member | source | states |
|---|---|---|
| Common.SettleBest | blog-version-js.js:642-644 | the best score becomes the larger of the previous best and the run's score, and the run is a new record exactly when its score is strictly higher than the previous best |
| Common.DrawBetween | blog-version-js.js:534-536 | `rand * (hi - lo) + lo` with rand in [0, 1) lies in [lo, hi) when lo < hi, and is lo when lo == hi |
| Geometry.RelativeTo | blog-version-js.js:441-445 | converting a box into container coordinates keeps its width and height and shifts its corner by the container's corner |
| Geometry.OverlapsIffSharedInteriorPoint | blog-version-js.js:481-496 | for boxes of positive size, the four strict comparisons hold exactly when some point lies strictly inside both boxes |
| Geometry.TouchingEdgesDoNotOverlap | blog-version-js.js:481-496 | boxes that only share an edge never collide, because every comparison is strict |
| Geometry.OverlapsSymmetric | blog-version-js.js:481-496 | the bird hits the pipe exactly when the pipe hits the bird |
| Geometry.OverlapsInvariantUnderRelative | blog-version-js.js:466-474 | testing the boxes in container coordinates gives the same answer as testing them in viewport coordinates |
| BlogGame.PresetFor | blog-version-js.js:187-203 | exactly difficulties 1, 2 and 3 select a preset, and every preset has a gap of at least 160 |
| BlogGame.ApplyPreset | blog-version-js.js:187-203 | difficulty 1, 2 and 3 set gravity, gap and speed to that preset, any other difficulty changes nothing, and nothing but gravity, gap and speed ever changes |
| BlogGame.InitGameVars | blog-version-js.js:176-203 | the bird is put at (150, 250), the game is not over and the score is 0; the preset is applied for difficulties 1 to 3, and gravity, gap and speed are kept otherwise; pairs, timers, last jump time, difficulty and best score are untouched |
| BlogGame.GenerateObstacle | blog-version-js.js:519-606 | a finished game or a container without width spawns nothing and schedules no further spawn; otherwise one pair is appended at the container's right edge, unscored and moving; bottom + gap + top equals the playfield height minus the ground; both pipes are at least 50 when the playfield leaves room for two minimal pipes |
| BlogGame.MoveAll | blog-version-js.js:576-599 | the field after the move is the old field with every moving pair shifted left by the speed, and with exactly the moving pairs now at or past x = −70 filtered out, every other pair kept once and in order; no moving pair at or past the exit line remains |
| BlogGame.MoveAllRemovesExactlyExiting | blog-version-js.js:582-597 | the pairs left and the pairs removed make up the shifted field as a multiset, none lost and none duplicated, and a pair is removed exactly when its move takes it to x ≤ −70 |
| BlogGame.RemovalIsPartition | blog-version-js.js:582-597 | the kept and the removed pairs together are the shifted pairs as a multiset; every removed pair is at or past the exit line and moving, and no kept pair is |
| BlogGame.FrozenPrefixStays | blog-version-js.js:577-580 | pairs whose timers are gone, at the front of the field, stay at the front untouched while the pairs behind them move |
| BlogGame.MoveObstacles | blog-version-js.js:577-580 | after a game over the obstacle timers change nothing; otherwise only the obstacle field changes |
| BlogGame.GameOver | blog-version-js.js:609-656 | the game is over and no loop, spawn or pair timer is installed; the best score is settled as max(prev, score) and changes iff the score beats it; score, bird, speed, gap and every pair's place and flag are kept |
| BlogGame.ScorePair | blog-version-js.js:499-510 | crediting marks exactly that pair scored and adds exactly one point; speed never falls; the gap changes by at most one step and never below 100; nothing else changes |
| BlogGame.Scan | blog-version-js.js:461-512 | the game ends iff some pair from this index on collides with the bird; a pair ends up scored iff it already was, or the bird is past it and no pair up to it collides; the score rises by exactly the number of newly scored pairs; the speed never falls and a gap at or above 100 stays there without widening; bird and positions untouched |
| BlogGame.CheckAllCollisions | blog-version-js.js:435-513 | the floor and ceiling end the game before any pair is examined, and then nothing scores; otherwise the scan decides; the score rises by exactly the number of newly scored pairs |
| BlogGame.GameLoop | blog-version-js.js:419-432 | a finished game is left alone; otherwise the bird sinks by exactly `gravity`, and the game ends exactly when the bird is out of bounds or hits some pair; a pair ends up scored iff it already was, or the bird is in bounds, past it and no pair up to it collides; the score follows the flags; the speed never falls and a gap at or above 100 stays there without widening |
| BlogGame.HandleJump | blog-version-js.js:381-400 | a request more than 100 ms after the last accepted jump in a running game lifts the bird by exactly 50 and records the time, and changes nothing else; any other request changes nothing |
| BlogGame.StartGame | blog-version-js.js:219-252 | with the page elements present the run restarts at score 0 with the bird home and the loop installed, keeping the existing pairs, the jump clock and the difficulty, and with the difficulty's gravity, gap and speed (unchanged for an unknown difficulty); a container with width adds exactly one pair and schedules the next spawn, while one without width adds none and leaves a pending spawn as it was; without the elements nothing happens |
| BlogGame.RestartGame | blog-version-js.js:675-757 | the obstacle field is cleared and the pending spawn cancelled before starting, so afterwards exactly one fresh, unscored pair is present and a spawn is pending when the container has width, and neither otherwise; score 0, the bird at (150, 250), the difficulty's gravity, gap and speed, with the jump clock, difficulty and best kept |
| BlogGame.ShowMainMenu | blog-version-js.js:872-907 | the loop is cleared, the game is no longer over, the score is 0, the bird is home and the difficulty's gravity, gap and speed are re-applied (unchanged for an unknown difficulty), while the obstacle field, a pending spawn, the jump clock, the difficulty and the best are kept |
| BlogGame.SetDifficulty | blog-version-js.js:821-832 | the slider stores only a value from 1 to 3, and a valid stored difficulty stays valid |
| BlogGame.CountAfterCredit | blog-version-js.js:499-502 | crediting one unscored pair raises the number of scored pairs by exactly one |
| BlogGame.ScorePairKeepsRamp | blog-version-js.js:507-510 | after a credit, speed and gap are still the preset's values moved by one step per 15 points, with the gap floored at 100 |
| BlogGame.ScanKeepsRamp | blog-version-js.js:461-512 | a whole collision scan keeps speed and gap on the ramp |
| BlogGame.GameplayKeepsRamp | blog-version-js.js:419-432 | every tick, spawn and jump keeps speed and gap on the ramp |
| BlogGame.RunKeepsRamp | blog-version-js.js:507-510 | any sequence of gameplay events keeps speed and gap on the ramp |
| BlogGame.RampRespectsFloor | blog-version-js.js:187-203 | from any of the three presets and any play that follows, the gap stays between 100 and the preset's gap, and the speed never drops below the preset's |
| BlogGame.StepKeepsGapFloor | blog-version-js.js:507-510 | from a gap of at least 100, every event, menus and restarts included, leaves the gap at or above 100 |
| BlogGame.RunKeepsGapFloor | blog-version-js.js:507-510 | any sequence of events from a gap of at least 100 keeps the gap at or above 100 |
| BlogGame.GapNeverBelowFloor | blog-version-js.js:507-510 | from the script's starting gap of 180, whatever happens, the gap never drops below 100 |
| BlogGame.GameOverIsAbsorbing | blog-version-js.js:419-420 | once the game is over and every timer is stopped, ticks, spawns, obstacle moves and jump requests leave the state unchanged |
| BlogGame.GameOverThenNothing | blog-version-js.js:609-611 | every game over reaches that absorbing state |
| BlogGame.TicksStayOver | blog-version-js.js:419-420 | loop ticks after a game over change nothing |
| BlogGame.FallWithoutJumps | blog-version-js.js:419-422 | without jumps, after k ticks of a game still running the bird has dropped by `gravity` once per tick |
| BlogGame.FallenClosedForm | blog-version-js.js:419-422 | k drops of `gravity` put the bird exactly k × gravity lower |
| BlogGame.EachPairScoresOnce | blog-version-js.js:499-502 | over any number of ticks the score rises by exactly the number of pairs that became scored, so it rises by at most the number of pairs not yet scored |
| BlogGame.AcceptedJumpsAreSpaced | blog-version-js.js:381-384 | two accepted jumps in a row are more than 100 ms apart |
| BlogGame.StaleObstaclesSurviveMenuStart | blog-version-js.js:872-907 | after a game over, the menu and a new start, the old pairs are still at the front of the field, frozen, and after an obstacle tick the field still begins with exactly those pairs |
| AppGame.SaveSettings | app.js:453-476 | difficulty 1, 2 and 3 select (speed, gap) = (1.5, 180), (2, 150) and (2.5, 120); any other value is stored but leaves speed and gap unchanged |
| AppGame.Credit | app.js:279-289 | one point; on a multiple of 10 the speed rises but never past 4 and the gap shrinks but never below 100; otherwise both stay |
| AppGame.CreditsClosedForm | app.js:285-288 | from score 0, after k points the speed is min(speed + 0.2·⌊k/10⌋, 4) and the gap is max(gap − 2·⌊k/10⌋, 100) |
| AppGame.CreateObstacle | app.js:301-331 | with no run in progress nothing happens; otherwise one pair is appended at x = 400, not passed, with top + gap + bottom = 420, and with both pipes at least 50 whenever the gap leaves room for them |
| AppGame.AdvanceAll | app.js:256-292 | in the original order, every pair is moved left by exactly the speed in force at its turn: the starting speed stepped by the ramp for every unpassed pair removed before it; the kept pairs are exactly the moved ones at or right of −70 and the removed pairs exactly those left of it, both in order; speed, gap and score are the starting ones credited once per removed unpassed pair; the speed stays within its cap and the gap above its floor |
| AppGame.EachPairMovesOnce | app.js:256-273 | the kept and removed pairs together are, as a multiset, exactly the moved pairs; each moved pair keeps everything but its position, and has moved by at least the starting speed and at most the final speed, and by exactly the starting speed when nothing scores |
| AppGame.SpeedAtWithin | app.js:256-288 | the speed in force at any turn of the sweep lies between the starting speed and the speed after the sweep, and is the starting speed when no pair scores |
| AppGame.StayingOnScreen | app.js:268 | every pair kept is at or right of −70 |
| AppGame.LeavingOffScreen | app.js:268 | every pair removed is left of −70 |
| AppGame.SplitIsPermutation | app.js:268-273 | the kept and the removed pairs together are the moved pairs, none lost and none duplicated |
| AppGame.CreditsStayInBounds | app.js:285-288 | any number of points keeps a speed at or below 4 there without lowering it, and a gap at or above 100 there without widening it |
| AppGame.CreditsShift | app.js:279-289 | one point followed by k more is the same as k + 1 points |
| AppGame.CreditsCompose | app.js:279-289 | n points followed by u more are the same as n + u points |
| AppGame.CreditsSpeedMonotone | app.js:285-288 | below the cap, more points never lower the speed and never raise it past 4 |
| AppGame.Sweep | app.js:346-369 | a collision is reported iff some pair from this index on overlaps the bird; a pair ends up passed iff it already was, or it has boxes, is behind the bird and no pair up to it collides |
| AppGame.CheckCollision | app.js:334-372 | without the bird or container nothing collides; the floor and ceiling are reported before any pair is examined; otherwise the sweep decides which pairs become passed |
| AppGame.HitIsOverlapWithEitherPipe | app.js:353-361 | when both pipes of a pair span the same columns, the collision test is exactly a strict overlap of the bird with the bottom pipe or with the top pipe |
| AppGame.GameOver | app.js:375-417 | the run stops, the best score becomes max(best, score) and changes iff the score beats it, and the obstacle field is empty |
| AppGame.Advance | app.js:248-292 | the velocity rises by 0.5 before the height moves by the new velocity; the pairs become the kept pairs of the sweep and speed, gap and score its pace; nothing else changes; every pair left is at or right of −70, the score never falls and the cap and floor are kept |
| AppGame.UpdateGame | app.js:245-298 | with no run nothing happens; otherwise the run goes on exactly when the collision check on the advanced state finds nothing, and then the state is the advanced one with the passed flags the check set; otherwise it is the game over of the advanced state, so a floor or ceiling hit and a pipe hit each stop the run and empty the field; survivors are at or right of −70 and the score never falls |
| AppGame.Jump | app.js:229-232 | during a run the velocity becomes exactly −8 and nothing else changes; otherwise nothing happens |
| AppGame.StartGame | app.js:192-226 | with the elements present the run starts at score 0, height 250, velocity 0 and no pairs, keeping speed and gap; without them nothing happens |
| AppGame.StepKeepsBounded | app.js:285-288 | every event keeps the speed at most 4 and the gap between 100 and 180 |
| AppGame.RampRespectsCapAndFloor | app.js:285-288 | any sequence of events from a bounded state keeps the speed at most 4 and the gap at least 100 |
| AppGame.InitialIsBounded | app.js:4-13 | the script's starting values are within the speed cap and the gap floor |
| AppGame.StoppedIsAbsorbing | app.js:245-246 | once a run has stopped, ticks, spawns and jumps leave the state unchanged |
| AppGame.TicksStayStopped | app.js:245-246 | ticks after a run has stopped change nothing |
| AppGame.ClimbClosedForm | app.js:249-250 | k ticks starting at velocity v move the bird by k·v + 0.25·k·(k+1) |
| AppGame.FlightFollowsClimb | app.js:249-250 | after k ticks of a run still going, the velocity has risen by exactly 0.5·k and the height has moved by the tick-by-tick climb |
| AppGame.JumpArc | app.js:229-232 | after a jump and k ticks of a run still going, the velocity is −8 + 0.5·k and the height has moved by the climb from −8 |
| AppGame.TickKeepsRamp | app.js:279-289 | a tick credits the points it scores on top of the earlier ones, so speed, gap and score stay those that `score` points from the run's starting values give |
| AppGame.GameplayKeepsRamp | app.js:245-298 | ticks, spawns and jumps keep speed, gap and score on that ramp |
| AppGame.RampFollowsScore | app.js:285-288 | throughout a run begun by a start command, the speed is min(speed₀ + 0.2·⌊score/10⌋, 4) and the gap max(gap₀ − 2·⌊score/10⌋, 100) for the speed and gap the run began with |
| AppGame.NoCreditWhenLeaversPassed | app.js:279-289 | when every pair that leaves on this tick has already passed, nothing scores and the ramp does not move |
| AppGame.TickScoresNothing | app.js:366-367 | with the speed at most the bird's column, a tick keeps the score and keeps every pair behind the bird marked as passed |
| AppGame.PassedPairsNeverScore | app.js:269-289 | with the bird's left edge fixed at b, speed ≤ b ≤ 470 and every pair reported, no sequence of ticks, spawns and jumps changes the score |
| AppGame.StartedRunNeverScores | app.js:201-205 | a run started under those conditions stays at score 0 |

## Left out

- Audio: `gameSounds` and `SoundSystem` only drive Web Audio oscillators.
- Rendering: style writes, `classList` effects, the controls hint and the score
  popup are out. So are the game-over text, the settings screen and
  `showSettings`/`toggleSettings`/`updateSettingsUI`.
- `app.js:406` nests single quotes inside a single-quoted string, so the file
  does not parse as written. The model follows the surrounding logic.
- The `isNewRecord` shown by `app.js`'s game-over screen is display only and is
  not modelled. It compares the score with the best score just saved.
- `app.js`'s `showMainMenu` only toggles screens, so it is not modelled.
- Event-listener plumbing (`addEventListenerSafe`, `removeAllEventListeners`,
  key/click/touch handlers) is out. It is reduced to the jump input.
- BlogGame.Step: a jump input is taken at any time, even before the first
  start. In `blog-version-js.js` the jump handlers are attached only by
  `startGame` (blog-version-js.js:236-244), so such a request does nothing
  there. No proved property depends on this.
- Start guards: the element checks of both start routines collapse into one
  `ready` flag. In `blog-version-js.js` this includes the `if (bird)` guard
  around the bird reset in `restartGame`, and the bird guard in
  `checkAllCollisions`.
- `app.js`'s `createObstacle` guard on `gameContainer` is not modelled. A run
  can only start when the container is present.
- Timers: `setInterval`/`setTimeout` become events, and an installed timer is a
  flag. `blog-version-js.js` can install a second game loop when `startGame`
  runs during a run. The flag collapses the two loops into one. Likewise, when `startGame`
  spawns while an earlier spawn timeout is still pending, the two pending
  spawns collapse into one.
- Timing of timer shutdown in `blog-version-js.js`: after `gameOver`, each
  pair's interval clears itself on its next fire, and only if `isGameOver` is
  still true then (blog-version-js.js:577-579). The model halts all of them at
  once. It thus assumes every pair's interval fires once before the next user
  command. A main-menu click within that 16 ms window sets `isGameOver` back
  to false (blog-version-js.js:882), and those pairs would keep moving.
- Obstacle timers in `blog-version-js.js`: each pair's 16 ms interval becomes
  one obstacle tick that moves every pair whose timer is still installed.
  Interleavings in which pairs move different numbers of times are not modelled.
- AppGame.AdvanceAll: the in-place splice during `forEach` in
  `app.js:257-276` can skip the pair after a removed one for that tick. The
  model moves every pair exactly once, as the loop evidently intends, so that
  skip is not modelled.
- Persistence: `localStorage`, `JSON.parse` and `parseInt` are out. The prior
  best score and the difficulty are inputs. A non-numeric slider value is out
  too, because the difficulty is an `int`.
- Floating point: 0.03, 0.2, 0.5 and every coordinate are exact reals, so
  rounding is not modelled.
- `Math.random()`, `Date.now()`, `getBoundingClientRect`, `offsetWidth` and
  `offsetHeight` become inputs.

=== FILE: app_game.dfy ===
/** The game rules of the application edition (app.js): the bird has a
    velocity that a jump sets to -8 and every tick raises by 0.5; obstacle
    pairs enter at x = 400 and are spliced out once they pass x = -70,
    which scores a point unless the pair was already marked as passed;
    every 10 points the speed rises by 0.2 up to 4 and the gap shrinks by 2
    down to 100.

    The playfield is fixed at 500 units with an 80-unit ground. Element
    boxes and the random draw arrive as inputs, and every timer firing is
    an explicit step on the whole state. */
module AppGame {
  import opened Common
  import opened Geometry

  const GameHeight: real := 500.0
  const GroundHeight: real := 80.0
  const BirdClearance: real := 40.0
  const SpawnLeft: real := 400.0
  const PipeWidth: real := 70.0
  const MinPipe: real := 50.0
  const FlapVelocity: real := -8.0
  /** Added to the velocity every tick. The height is the bird's CSS bottom
      offset, so this pushes the bird up, and the jump's -8 sends it down. */
  const TickAcceleration: real := 0.5
  const HomeY: real := 250.0
  const ExitLine: real := -70.0
  const RampEvery: nat := 10
  const SpeedStep: real := 0.2
  const SpeedCap: real := 4.0
  const GapStep: real := 2.0
  const GapFloor: real := 100.0
  const GapCeiling: real := 180.0

  /** One live obstacle pair: its horizontal position, the two pipe heights
      drawn at spawn time, and whether the bird has been seen past it. */
  datatype Pair = Pair(left: real, topHeight: real, bottomHeight: real, passed: bool)

  /** The whole game: whether a run is in progress, the difficulty values,
      the score and best score, the bird's height above the floor and its
      velocity, the obstacle field, and the difficulty setting. */
  datatype Session = Session(
    running: bool,
    gameSpeed: real,
    score: nat,
    best: nat,
    birdY: real,
    birdVelocity: real,
    obstacles: seq<Pair>,
    gap: real,
    difficulty: int)

  /** The values the script starts with; the stored difficulty and best
      score are loaded, but no preset is applied until settings are saved. */
  function Initial(difficulty: int, best: nat): Session {
    Session(false, 2.0, 0, best, HomeY, 0.0, [], 150.0, difficulty)
  }

  /* ---------------------------------------------------------------------
     Difficulty: presets and the ramp
     --------------------------------------------------------------------- */

  /** saveSettings: difficulty 1, 2 and 3 select speed 1.5, 2 and 2.5 with
      gap 180, 150 and 120; any other value is stored but leaves speed and
      gap as they are. */
  function SaveSettings(s: Session, value: int): (r: Session)
    ensures r.difficulty == value
    ensures r.(difficulty := s.difficulty, gameSpeed := s.gameSpeed, gap := s.gap) == s
    ensures value == 1 ==> r.gameSpeed == 1.5 && r.gap == 180.0
    ensures value == 2 ==> r.gameSpeed == 2.0 && r.gap == 150.0
    ensures value == 3 ==> r.gameSpeed == 2.5 && r.gap == 120.0
    ensures !(1 <= value <= 3) ==> r.gameSpeed == s.gameSpeed && r.gap == s.gap
  {
    var stored := s.(difficulty := value);
    if value == 1 then stored.(gameSpeed := 1.5, gap := 180.0)
    else if value == 2 then stored.(gameSpeed := 2.0, gap := 150.0)
    else if value == 3 then stored.(gameSpeed := 2.5, gap := 120.0)
    else stored
  }

  /** The values the ramp threads through one tick: speed, gap and score. */
  datatype Pace = Pace(speed: real, gap: real, score: nat)

  /** One point scored: on every tenth point the speed rises by 0.2 but not
      past 4, and the gap shrinks by 2 but not below 100. */
  function Credit(p: Pace): (r: Pace)
    ensures r.score == p.score + 1
    ensures p.speed <= SpeedCap ==> p.speed <= r.speed <= SpeedCap
    ensures p.gap >= GapFloor ==> GapFloor <= r.gap <= p.gap
    ensures r.score % RampEvery != 0 ==> r.speed == p.speed && r.gap == p.gap
  {
    var score := p.score + 1;
    if score % RampEvery == 0 then
      Pace(MinReal(p.speed + SpeedStep, SpeedCap), MaxReal(p.gap - GapStep, GapFloor), score)
    else Pace(p.speed, p.gap, score)
  }

  /** k points in a row. */
  function Credits(p: Pace, k: nat): (r: Pace)
    ensures r.score == p.score + k
  {
    if k == 0 then p else Credit(Credits(p, k - 1))
  }

  /** The speed cap and the gap floor bound the values in play. */
  predicate Bounded(s: Session) {
    s.gameSpeed <= SpeedCap && GapFloor <= s.gap <= GapCeiling
  }

  /* ---------------------------------------------------------------------
     Obstacle field
     --------------------------------------------------------------------- */

  /** createObstacle: the top pipe's height is drawn from
      [50, 500 - gap - 80 - 50), the bottom pipe takes the rest of the
      playfield below the gap, and the pair enters at x = 400 not yet
      passed. Nothing happens when no run is in progress. */
  function CreateObstacle(s: Session, rand: real): (r: Session)
    requires 0.0 <= rand < 1.0
    ensures !s.running ==> r == s
    ensures s.running ==>
      && r == s.(obstacles := r.obstacles)
      && |r.obstacles| == |s.obstacles| + 1
      && r.obstacles[..|s.obstacles|] == s.obstacles
      && var p := r.obstacles[|s.obstacles|];
         && p.left == SpawnLeft && !p.passed
         && p.topHeight + s.gap + p.bottomHeight == GameHeight - GroundHeight
         && (GameHeight - GroundHeight - s.gap >= 2.0 * MinPipe ==>
               MinPipe <= p.topHeight && MinPipe <= p.bottomHeight)
         && (GameHeight - GroundHeight - s.gap > 2.0 * MinPipe ==>
               p.topHeight < GameHeight - GroundHeight - s.gap - MinPipe && p.bottomHeight > MinPipe)
  {
    if !s.running then s
    else
      var top := DrawBetween(rand, MinPipe, GameHeight - s.gap - GroundHeight - MinPipe);
      var bottom := GameHeight - top - s.gap - GroundHeight;
      s.(obstacles := s.obstacles + [Pair(SpawnLeft, top, bottom, false)])
  }

  /** The number of pairs that had not been marked as passed. */
  function UnpassedCount(ps: seq<Pair>): (c: nat)
    ensures c <= |ps|
  {
    if ps == [] then 0 else (if ps[0].passed then 0 else 1) + UnpassedCount(ps[1..])
  }

  /** The pairs past the exit line, in order. */
  function Leaving(ps: seq<Pair>): seq<Pair> {
    if ps == [] then [] else (if ps[0].left < ExitLine then [ps[0]] else []) + Leaving(ps[1..])
  }

  /** The pairs not yet past the exit line, in order. */
  function Staying(ps: seq<Pair>): seq<Pair> {
    if ps == [] then [] else (if ps[0].left >= ExitLine then [ps[0]] else []) + Staying(ps[1..])
  }

  /** Every pair kept is at or right of the exit line. */
  lemma {:induction false} StayingOnScreen(ps: seq<Pair>)
    ensures forall q :: q in Staying(ps) ==> q.left >= ExitLine
    decreases |ps|
  {
    if ps != [] {
      StayingOnScreen(ps[1..]);
    }
  }

  /** Every pair spliced out is left of the exit line. */
  lemma {:induction false} LeavingOffScreen(ps: seq<Pair>)
    ensures forall q :: q in Leaving(ps) ==> q.left < ExitLine
    decreases |ps|
  {
    if ps != [] {
      LeavingOffScreen(ps[1..]);
    }
  }

  /** The outcome of moving every pair once: every pair after its move, in
      the original order; the pairs still on screen; the pairs spliced out;
      and the ramp values after any points scored. */
  datatype Advanced = Advanced(moved: seq<Pair>, kept: seq<Pair>, dropped: seq<Pair>, pace: Pace)

  /** The speed in force when the k-th pair moves: the starting pace plus
      one credit for every earlier pair that left without having passed. */
  function SpeedAt(pace: Pace, moved: seq<Pair>, k: nat): real
    requires k <= |moved|
  {
    Credits(pace, UnpassedCount(Leaving(moved[..k]))).speed
  }

  /** What one sweep over the pairs must produce: every pair moved left by
      the speed in force when its turn comes, in the original order; the
      kept and dropped pairs are the moved ones at or right of, and left
      of, the exit line; and the pace has taken one credit per dropped pair
      that had not passed. */
  predicate Advances(obs: seq<Pair>, pace: Pace, r: Advanced) {
    && Displaced(obs, pace, r.moved)
    && r.kept == Staying(r.moved) && r.dropped == Leaving(r.moved)
    && r.pace == Credits(pace, UnpassedCount(r.dropped))
  }

  /** Every pair moved left by the speed in force when its turn comes, in
      the original order. */
  predicate Displaced(obs: seq<Pair>, pace: Pace, moved: seq<Pair>) {
    && |moved| == |obs|
    && forall k :: 0 <= k < |obs| ==>
         moved[k] == obs[k].(left := obs[k].left - SpeedAt(pace, moved, k))
  }

  /** The forEach of updateGame, in order: each pair moves left by the
      current speed; a pair now left of x = -70 is spliced out and scores a
      point, with the ramp applied, unless it was already passed. Points
      scored early in the sweep speed up the pairs after it. */
  function AdvanceAll(obs: seq<Pair>, pace: Pace): (r: Advanced)
    ensures Advances(obs, pace, r)
    ensures |r.kept| + |r.dropped| == |obs|
    ensures r.pace.score == pace.score + UnpassedCount(r.dropped)
    ensures pace.speed <= SpeedCap ==> pace.speed <= r.pace.speed <= SpeedCap
    ensures pace.gap >= GapFloor ==> GapFloor <= r.pace.gap <= pace.gap
    decreases |obs|
  {
    if obs == [] then Advanced([], [], [], pace)
    else
      var p := obs[0].(left := obs[0].left - pace.speed);
      var rest := AdvanceAll(obs[1..], if ScoresOnLeaving(p) == 1 then Credit(pace) else pace);
      AdvanceAllCons(obs, pace, p, rest);
      AdvancesFacts(obs, pace, Join(p, rest));
      Join(p, rest)
  }

  /** What follows from a correct sweep: every pair is kept or dropped,
      the score rises by the unpassed dropped pairs, and the ramp stays
      within its cap and floor. */
  lemma AdvancesFacts(obs: seq<Pair>, pace: Pace, r: Advanced)
    requires Advances(obs, pace, r)
    ensures |r.kept| + |r.dropped| == |obs|
    ensures r.pace.score == pace.score + UnpassedCount(r.dropped)
    ensures pace.speed <= SpeedCap ==> pace.speed <= r.pace.speed <= SpeedCap
    ensures pace.gap >= GapFloor ==> GapFloor <= r.pace.gap <= pace.gap
  {
    SplitIsPermutation(r.moved);
    assert |multiset(r.kept)| + |multiset(r.dropped)| == |multiset(r.moved)|;
    CreditsStayInBounds(pace, UnpassedCount(r.dropped));
  }

  /** The first pair, moved, in front of the outcome for the rest. */
  function Join(p: Pair, rest: Advanced): Advanced {
    if p.left < ExitLine then Advanced([p] + rest.moved, rest.kept, [p] + rest.dropped, rest.pace)
    else Advanced([p] + rest.moved, [p] + rest.kept, rest.dropped, rest.pace)
  }

  /** Whether the pair, once moved, leaves without having passed and so
      scores: 1 or 0. */
  function ScoresOnLeaving(p: Pair): nat {
    if p.left < ExitLine && !p.passed then 1 else 0
  }

  lemma SplitCons(p: Pair, xs: seq<Pair>)
    ensures Leaving([p] + xs) == (if p.left < ExitLine then [p] + Leaving(xs) else Leaving(xs))
    ensures Staying([p] + xs) == (if p.left < ExitLine then Staying(xs) else [p] + Staying(xs))
    ensures UnpassedCount(Leaving([p] + xs)) == ScoresOnLeaving(p) + UnpassedCount(Leaving(xs))
  {
    assert ([p] + xs)[1..] == xs;
    if p.left < ExitLine {
      assert ([p] + Leaving(xs))[1..] == Leaving(xs);
    }
  }

  /** The speed in force for a later pair, seen from the rest of the sweep,
      is the one seen from its start. */
  lemma SpeedAtCons(pace: Pace, p: Pair, rest: seq<Pair>, k: nat)
    requires 1 <= k <= |rest| + 1
    ensures var next := if ScoresOnLeaving(p) == 1 then Credit(pace) else pace;
            SpeedAt(pace, [p] + rest, k) == SpeedAt(next, rest, k - 1)
  {
    var next := if ScoresOnLeaving(p) == 1 then Credit(pace) else pace;
    assert ([p] + rest)[..k] == [p] + rest[..k - 1];
    SplitCons(p, rest[..k - 1]);
    CreditsShiftBy(pace, next, ScoresOnLeaving(p), UnpassedCount(Leaving(rest[..k - 1])));
  }

  /** The displacement clause of the inductive step: the first pair moved
      by the starting speed, in front of the rest moved by the speeds in
      force after it. */
  lemma MovedCons(obs: seq<Pair>, pace: Pace, moved: seq<Pair>, p: Pair)
    requires obs != [] && p == obs[0].(left := obs[0].left - pace.speed)
    requires Displaced(obs[1..], if ScoresOnLeaving(p) == 1 then Credit(pace) else pace, moved)
    ensures Displaced(obs, pace, [p] + moved)
  {
    assert ([p] + moved)[..0] == [];
    forall k | 1 <= k < |obs|
      ensures ([p] + moved)[k] == obs[k].(left := obs[k].left - SpeedAt(pace, [p] + moved, k))
    {
      SpeedAtCons(pace, p, moved, k);
      assert obs[k] == obs[1..][k - 1];
    }
  }

  /** The inductive step of AdvanceAll: the first pair moved by the
      starting speed, in front of a correct outcome for the rest under the
      pace that pair leaves behind, is a correct outcome for all. */
  lemma AdvanceAllCons(obs: seq<Pair>, pace: Pace, p: Pair, rest: Advanced)
    requires obs != [] && p == obs[0].(left := obs[0].left - pace.speed)
    requires Advances(obs[1..], if ScoresOnLeaving(p) == 1 then Credit(pace) else pace, rest)
    ensures Advances(obs, pace, Join(p, rest))
  {
    var next := if ScoresOnLeaving(p) == 1 then Credit(pace) else pace;
    var j := Join(p, rest);
    assert j.moved == [p] + rest.moved && j.pace == rest.pace;
    MovedCons(obs, pace, rest.moved, p);
    SplitCons(p, rest.moved);
    assert j.kept == Staying(j.moved) && j.dropped == Leaving(j.moved);
    CreditsShiftBy(pace, next, ScoresOnLeaving(p), UnpassedCount(rest.dropped));
    assert j.pace == Credits(pace, UnpassedCount(j.dropped));
  }

  /** Credits keep a speed at or below 4 there, never lowering it, and a gap
      at or above 100 there, never widening it. */
  lemma {:induction false} CreditsStayInBounds(p: Pace, n: nat)
    ensures p.speed <= SpeedCap ==> p.speed <= Credits(p, n).speed <= SpeedCap
    ensures p.gap >= GapFloor ==> GapFloor <= Credits(p, n).gap <= p.gap
    decreases n
  {
    if n > 0 {
      CreditsStayInBounds(p, n - 1);
    }
  }

  /** One credit first and then k more is k + 1 credits. */
  lemma {:induction false} CreditsShift(p: Pace, k: nat)
    ensures Credits(Credit(p), k) == Credits(p, k + 1)
    decreases k
  {
    if k > 0 {
      CreditsShift(p, k - 1);
    }
  }

  /** The pace after zero or one credit, followed by k credits, is the
      original pace followed by c + k credits. */
  lemma CreditsShiftBy(pace: Pace, next: Pace, c: nat, k: nat)
    requires c <= 1 && next == (if c == 1 then Credit(pace) else pace)
    ensures Credits(next, k) == Credits(pace, c + k)
  {
    if c == 1 {
      CreditsShift(pace, k);
    }
  }

  /** n credits followed by u more are n + u credits. */
  lemma {:induction false} CreditsCompose(p: Pace, n: nat, u: nat)
    ensures Credits(Credits(p, n), u) == Credits(p, n + u)
    decreases u
  {
    if u > 0 {
      CreditsCompose(p, n, u - 1);
    }
  }

  /** Below the cap, credits only ever raise the speed, and never past 4. */
  lemma {:induction false} CreditsSpeedMonotone(p: Pace, j: nat, n: nat)
    requires j <= n && p.speed <= SpeedCap
    ensures p.speed <= Credits(p, j).speed <= Credits(p, n).speed <= SpeedCap
    decreases n
  {
    if n > j {
      CreditsSpeedMonotone(p, j, n - 1);
    } else if n > 0 {
      CreditsSpeedMonotone(p, n - 1, n - 1);
    }
  }

  lemma {:induction false} UnpassedAppend(a: seq<Pair>, b: seq<Pair>)
    ensures UnpassedCount(a + b) == UnpassedCount(a) + UnpassedCount(b)
    decreases |a|
  {
    if a == [] {
      assert a + b == b;
    } else {
      assert (a + b)[0] == a[0];
      assert (a + b)[1..] == a[1..] + b;
      UnpassedAppend(a[1..], b);
    }
  }

  lemma {:induction false} LeavingAppend(a: seq<Pair>, b: seq<Pair>)
    ensures Leaving(a + b) == Leaving(a) + Leaving(b)
    decreases |a|
  {
    if a == [] {
      assert a + b == b;
      assert Leaving(a) == [];
    } else {
      var head := if a[0].left < ExitLine then [a[0]] else [];
      assert (a + b)[0] == a[0];
      assert (a + b)[1..] == a[1..] + b;
      assert Leaving(a + b) == head + Leaving(a[1..] + b);
      assert Leaving(a) == head + Leaving(a[1..]);
      LeavingAppend(a[1..], b);
      assert head + (Leaving(a[1..]) + Leaving(b)) == (head + Leaving(a[1..])) + Leaving(b);
    }
  }

  /** The pairs kept and the pairs spliced out are, together, exactly the
      moved pairs: none is lost and none is duplicated. */
  lemma {:induction false} SplitIsPermutation(ps: seq<Pair>)
    ensures multiset(Staying(ps)) + multiset(Leaving(ps)) == multiset(ps)
    decreases |ps|
  {
    if ps != [] {
      SplitIsPermutation(ps[1..]);
      assert ps == [ps[0]] + ps[1..];
    }
  }

  /** Every pair moves exactly once, by a speed between the one in force at
      the start of the tick and the one at its end, and by exactly the
      starting speed when nothing scores; the pairs kept and dropped are
      the moved pairs, each exactly once. */
  lemma EachPairMovesOnce(obs: seq<Pair>, pace: Pace)
    requires pace.speed <= SpeedCap
    ensures var r := AdvanceAll(obs, pace);
            && multiset(r.kept) + multiset(r.dropped) == multiset(r.moved)
            && (forall k :: 0 <= k < |obs| ==>
                  && r.moved[k] == obs[k].(left := r.moved[k].left)
                  && pace.speed <= obs[k].left - r.moved[k].left <= r.pace.speed)
            && (UnpassedCount(r.dropped) == 0 ==>
                  forall k :: 0 <= k < |obs| ==> obs[k].left - r.moved[k].left == pace.speed)
  {
    var r := AdvanceAll(obs, pace);
    SplitIsPermutation(r.moved);
    forall k | 0 <= k < |obs|
      ensures pace.speed <= SpeedAt(pace, r.moved, k) <= r.pace.speed
      ensures UnpassedCount(r.dropped) == 0 ==> SpeedAt(pace, r.moved, k) == pace.speed
    {
      SpeedAtWithin(pace, r.moved, k);
    }
  }

  /** The speed in force at any turn lies between the starting speed and
      the speed after the whole sweep, and is the starting speed when no
      pair scores. */
  lemma SpeedAtWithin(pace: Pace, moved: seq<Pair>, k: nat)
    requires pace.speed <= SpeedCap && k <= |moved|
    ensures var total := UnpassedCount(Leaving(moved));
            && pace.speed <= SpeedAt(pace, moved, k) <= Credits(pace, total).speed
            && (total == 0 ==> SpeedAt(pace, moved, k) == pace.speed)
  {
    assert moved == moved[..k] + moved[k..];
    LeavingAppend(moved[..k], moved[k..]);
    UnpassedAppend(Leaving(moved[..k]), Leaving(moved[k..]));
    CreditsSpeedMonotone(pace, UnpassedCount(Leaving(moved[..k])), UnpassedCount(Leaving(moved)));
  }

  /* ---------------------------------------------------------------------
     Collision
     --------------------------------------------------------------------- */

  /** What one tick reads from the page, in viewport coordinates: whether
      the bird and container elements exist at all, their boxes, and the
      boxes of each live pair (in the order of the live pairs). */
  datatype Frame = Frame(present: bool, bird: Rect, container: Rect, pairs: seq<Option<PairBoxes>>)

  /** The bird's left edge in container coordinates. */
  function BirdLeft(f: Frame): real {
    f.bird.left - f.container.left
  }

  /** The floor and ceiling test on the bird's logical height. */
  predicate OutOfBounds(birdY: real) {
    birdY <= 0.0 || birdY >= GameHeight - GroundHeight - BirdClearance
  }

  /** The bird overlaps the i-th pair: horizontally with the bottom pipe's
      box, and vertically with the bottom or the top pipe's box. */
  predicate HitsPair(f: Frame, i: nat) {
    && BoxAt(f.pairs, i).Some?
    && var pb := BoxAt(f.pairs, i).value;
       && f.bird.right > pb.bottom.left && f.bird.left < pb.bottom.right
       && ((f.bird.bottom > pb.bottom.top && f.bird.top < pb.bottom.bottom)
           || (f.bird.bottom > pb.top.top && f.bird.top < pb.top.bottom))
  }

  /** The pair's logical position plus the pipe width is strictly left of
      the bird. */
  predicate Behind(f: Frame, p: Pair) {
    p.left + PipeWidth < BirdLeft(f)
  }

  predicate ClearThrough(f: Frame, i: nat, k: nat) {
    forall j: nat :: i <= j <= k ==> !HitsPair(f, j)
  }

  predicate SomeHitFrom(f: Frame, i: nat, n: nat) {
    exists j: nat :: i <= j < n && HitsPair(f, j)
  }

  /** Whether checkCollision reported a collision, and the pairs with their
      passed flags as it left them. */
  datatype Check = Check(collided: bool, obstacles: seq<Pair>)

  /** The obstacle loop of checkCollision from index i on: a pair without
      boxes is skipped; a collision returns at once; otherwise a pair the
      bird is past is marked as passed. */
  function Sweep(obs: seq<Pair>, f: Frame, i: nat): (c: Check)
    requires i <= |obs|
    ensures |c.obstacles| == |obs|
    ensures forall k :: 0 <= k < |obs| ==> c.obstacles[k] == obs[k].(passed := c.obstacles[k].passed)
    ensures forall k :: 0 <= k < i ==> c.obstacles[k].passed == obs[k].passed
    ensures forall k :: i <= k < |obs| ==>
              (c.obstacles[k].passed <==>
                 obs[k].passed || (BoxAt(f.pairs, k).Some? && Behind(f, obs[k]) && ClearThrough(f, i, k)))
    ensures c.collided <==> SomeHitFrom(f, i, |obs|)
    decreases |obs| - i
  {
    if i == |obs| then Check(false, obs)
    else if BoxAt(f.pairs, i).None? then Sweep(obs, f, i + 1)
    else if HitsPair(f, i) then Check(true, obs)
    else if !obs[i].passed && Behind(f, obs[i]) then Sweep(obs[i := obs[i].(passed := true)], f, i + 1)
    else Sweep(obs, f, i + 1)
  }

  /** checkCollision: without the bird or container element nothing
      collides; the floor and ceiling end the run before any pair is
      examined; otherwise the pairs are swept in order. */
  function CheckCollision(s: Session, f: Frame): (c: Check)
    ensures |c.obstacles| == |s.obstacles|
    ensures forall k :: 0 <= k < |s.obstacles| ==> c.obstacles[k] == s.obstacles[k].(passed := c.obstacles[k].passed)
    ensures c.collided <==> f.present && (OutOfBounds(s.birdY) || SomeHitFrom(f, 0, |s.obstacles|))
    ensures forall k :: 0 <= k < |s.obstacles| ==>
              (c.obstacles[k].passed <==>
                 s.obstacles[k].passed
                 || (f.present && !OutOfBounds(s.birdY) && BoxAt(f.pairs, k).Some?
                     && Behind(f, s.obstacles[k]) && ClearThrough(f, 0, k)))
  {
    if !f.present then Check(false, s.obstacles)
    else if OutOfBounds(s.birdY) then Check(true, s.obstacles)
    else Sweep(s.obstacles, f, 0)
  }

  /* ---------------------------------------------------------------------
     Session lifecycle
     --------------------------------------------------------------------- */

  /** gameOver: the run stops, the best score becomes the larger of itself
      and the score, and the obstacle field is emptied. */
  function GameOver(s: Session): (r: Session)
    ensures !r.running && r.obstacles == []
    ensures r.best >= s.best && r.best >= s.score && (r.best == s.best || r.best == s.score)
    ensures r.best != s.best <==> s.score > s.best
    ensures r.(running := s.running, best := s.best, obstacles := s.obstacles) == s
  {
    s.(running := false, best := SettleBest(s.best, s.score).best, obstacles := [])
  }

  /** The movement half of updateGame: the per-tick acceleration acts on
      the velocity and the velocity on the height, then every pair moves
      and the ones that left are spliced out, scoring as they go. */
  function Advance(s: Session): (m: Session)
    ensures m.birdVelocity == s.birdVelocity + TickAcceleration && m.birdY == s.birdY + m.birdVelocity
    ensures var adv := AdvanceAll(s.obstacles, Pace(s.gameSpeed, s.gap, s.score));
            && m.obstacles == adv.kept
            && Pace(m.gameSpeed, m.gap, m.score) == adv.pace
    ensures m.(birdVelocity := s.birdVelocity, birdY := s.birdY, obstacles := s.obstacles,
               gameSpeed := s.gameSpeed, gap := s.gap, score := s.score) == s
    ensures forall k :: 0 <= k < |m.obstacles| ==> m.obstacles[k].left >= ExitLine
    ensures m.score >= s.score
    ensures Bounded(s) ==> Bounded(m)
  {
    var velocity := s.birdVelocity + TickAcceleration;
    var adv := AdvanceAll(s.obstacles, Pace(s.gameSpeed, s.gap, s.score));
    StayingOnScreen(adv.moved);
    assert forall k :: 0 <= k < |adv.kept| ==> adv.kept[k] in adv.kept;
    s.(birdVelocity := velocity, birdY := s.birdY + velocity, obstacles := adv.kept,
       gameSpeed := adv.pace.speed, gap := adv.pace.gap, score := adv.pace.score)
  }

  /** updateGame: nothing happens when no run is in progress; otherwise
      the state advances, and the run goes on exactly when the collision
      check on the advanced state finds nothing, keeping the passed flags
      it set; a collision ends the run. */
  function UpdateGame(s: Session, f: Frame): (r: Session)
    ensures !s.running ==> r == s
    ensures s.running ==> (r.running <==> !CheckCollision(Advance(s), f).collided)
    ensures s.running && r.running ==> r == Advance(s).(obstacles := CheckCollision(Advance(s), f).obstacles)
    ensures s.running && !r.running ==> r == GameOver(Advance(s))
    ensures s.running && f.present && OutOfBounds(Advance(s).birdY) ==> !r.running && r.obstacles == []
    ensures s.running && f.present && SomeHitFrom(f, 0, |Advance(s).obstacles|) ==> !r.running && r.obstacles == []
    ensures s.running ==> r.birdVelocity == s.birdVelocity + TickAcceleration && r.birdY == s.birdY + r.birdVelocity
    ensures r.score >= s.score && r.difficulty == s.difficulty
    ensures s.running && r.running ==> forall k :: 0 <= k < |r.obstacles| ==> r.obstacles[k].left >= ExitLine
    ensures !r.running ==> r.obstacles == [] || r == s
    ensures Bounded(s) ==> Bounded(r)
  {
    if !s.running then s
    else
      var m := Advance(s);
      var c := CheckCollision(m, f);
      if c.collided then GameOver(m) else m.(obstacles := c.obstacles)
  }

  /** jump: the velocity becomes exactly -8, during a run only. */
  function Jump(s: Session): (r: Session)
    ensures !s.running ==> r == s
    ensures s.running ==> r.birdVelocity == FlapVelocity && r.(birdVelocity := s.birdVelocity) == s
  {
    if !s.running then s else s.(birdVelocity := FlapVelocity)
  }

  /** startGame (and restartGame, which only calls it): refused when the
      page's elements are missing; otherwise a run starts with score 0, the
      bird at height 250 at rest, and no pairs. Speed and gap are not
      reset, so a ramp reached in the previous run carries over. */
  function StartGame(s: Session, ready: bool): (r: Session)
    ensures !ready ==> r == s
    ensures ready ==>
      && r.running && r.score == 0 && r.birdY == HomeY && r.birdVelocity == 0.0 && r.obstacles == []
      && r.gameSpeed == s.gameSpeed && r.gap == s.gap && r.best == s.best && r.difficulty == s.difficulty
  {
    if !ready then s
    else s.(running := true, score := 0, birdY := HomeY, birdVelocity := 0.0, obstacles := [])
  }

  /* ---------------------------------------------------------------------
     Events
     --------------------------------------------------------------------- */

  /** Everything that can happen to the game: the two timers firing, a jump
      request, and the player's commands. */
  datatype Event =
    | Tick(frame: Frame)
    | SpawnTick(rand: real)
    | JumpInput
    | StartCommand(ready: bool)
    | RestartCommand(ready: bool)
    | SettingsSaved(value: int)

  predicate Feasible(e: Event) {
    e.SpawnTick? ==> 0.0 <= e.rand < 1.0
  }

  /** Events that belong to a run in progress rather than to the menus. */
  predicate Gameplay(e: Event) {
    e.Tick? || e.SpawnTick? || e.JumpInput?
  }

  function Step(s: Session, e: Event): Session
    requires Feasible(e)
  {
    match e
    case Tick(f) => UpdateGame(s, f)
    case SpawnTick(rand) => CreateObstacle(s, rand)
    case JumpInput => Jump(s)
    case StartCommand(ready) => StartGame(s, ready)
    case RestartCommand(ready) => StartGame(s, ready)
    case SettingsSaved(v) => SaveSettings(s, v)
  }

  function Run(s: Session, es: seq<Event>): Session
    requires forall k :: 0 <= k < |es| ==> Feasible(es[k])
    decreases |es|
  {
    if es == [] then s else Run(Step(s, es[0]), es[1..])
  }

  /** Game-loop ticks alone. */
  function Ticks(s: Session, frames: seq<Frame>): Session
    decreases |frames|
  {
    if frames == [] then s else Ticks(UpdateGame(s, frames[0]), frames[1..])
  }

  /* ---------------------------------------------------------------------
     Lemmas
     --------------------------------------------------------------------- */

  /** The collision test is the strict box overlap of the bird with either
      pipe, given that both pipes of a pair span the same columns. */
  lemma HitIsOverlapWithEitherPipe(f: Frame, i: nat)
    requires BoxAt(f.pairs, i).Some?
    requires var pb := BoxAt(f.pairs, i).value; pb.top.left == pb.bottom.left && pb.top.right == pb.bottom.right
    ensures var pb := BoxAt(f.pairs, i).value;
            HitsPair(f, i) <==> Overlaps(f.bird, pb.bottom) || Overlaps(f.bird, pb.top)
  {
  }

  /** After k points from score 0, speed and gap are the capped and floored
      linear functions of the number of tenth points reached. */
  lemma {:induction false} CreditsClosedForm(p: Pace, k: nat)
    requires p.score == 0 && p.speed <= SpeedCap && p.gap >= GapFloor
    ensures Credits(p, k).score == k
    ensures Credits(p, k).speed == MinReal(p.speed + SpeedStep * (k / RampEvery) as real, SpeedCap)
    ensures Credits(p, k).gap == MaxReal(p.gap - GapStep * (k / RampEvery) as real, GapFloor)
  {
    if k > 0 {
      CreditsClosedForm(p, k - 1);
      var q := (k - 1) / RampEvery;
      if k % RampEvery == 0 {
        assert k / RampEvery == q + 1;
        assert SpeedStep * (q + 1) as real == SpeedStep * q as real + SpeedStep;
        assert GapStep * (q + 1) as real == GapStep * q as real + GapStep;
      } else {
        assert k / RampEvery == q;
      }
    }
  }

  /** Every event keeps speed at most 4 and the gap between 100 and 180. */
  lemma StepKeepsBounded(s: Session, e: Event)
    requires Feasible(e) && Bounded(s)
    ensures Bounded(Step(s, e))
  {
  }

  /** From the script's starting values, whatever happens, speed never
      exceeds 4 and the gap never drops below 100, so every spawned pair
      has both pipes at least 50 high. */
  lemma {:induction false} RampRespectsCapAndFloor(s: Session, es: seq<Event>)
    requires forall k :: 0 <= k < |es| ==> Feasible(es[k])
    requires Bounded(s)
    ensures Bounded(Run(s, es))
    decreases |es|
  {
    if es != [] {
      StepKeepsBounded(s, es[0]);
      RampRespectsCapAndFloor(Step(s, es[0]), es[1..]);
    }
  }

  lemma InitialIsBounded(difficulty: int, best: nat)
    ensures Bounded(Initial(difficulty, best))
  {
  }

  function RunGameplay(s: Session, es: seq<Event>): Session
    requires forall k :: 0 <= k < |es| ==> Feasible(es[k]) && Gameplay(es[k])
    decreases |es|
  {
    if es == [] then s else RunGameplay(Step(s, es[0]), es[1..])
  }

  /** Once a run has stopped, ticks, spawns and jumps change nothing; only a
      start or restart leaves the state. */
  lemma {:induction false} StoppedIsAbsorbing(s: Session, es: seq<Event>)
    requires !s.running
    requires forall k :: 0 <= k < |es| ==> Feasible(es[k]) && Gameplay(es[k])
    ensures RunGameplay(s, es) == s
    decreases |es|
  {
    if es != [] {
      assert Step(s, es[0]) == s;
      StoppedIsAbsorbing(s, es[1..]);
    }
  }

  lemma {:induction false} TicksStayStopped(s: Session, frames: seq<Frame>)
    requires !s.running
    ensures Ticks(s, frames) == s
    decreases |frames|
  {
    if frames != [] {
      TicksStayStopped(s, frames[1..]);
    }
  }

  /** Speed, gap and score are where `score` credits from a score-0 base
      put them. */
  predicate OnRamp(s: Session, base: Pace) {
    base.score == 0 && Pace(s.gameSpeed, s.gap, s.score) == Credits(base, s.score)
  }

  /** A tick keeps the ramp on course: the points a sweep scores are
      credited on top of the ones before. */
  lemma TickKeepsRamp(s: Session, f: Frame, base: Pace)
    requires OnRamp(s, base)
    ensures OnRamp(UpdateGame(s, f), base)
  {
    if s.running {
      var adv := AdvanceAll(s.obstacles, Pace(s.gameSpeed, s.gap, s.score));
      CreditsCompose(base, s.score, UnpassedCount(adv.dropped));
    }
  }

  /** Ticks, spawns and jumps keep the ramp on course. */
  lemma {:induction false} GameplayKeepsRamp(s: Session, es: seq<Event>, base: Pace)
    requires forall k :: 0 <= k < |es| ==> Feasible(es[k]) && Gameplay(es[k])
    requires OnRamp(s, base)
    ensures OnRamp(RunGameplay(s, es), base)
    decreases |es|
  {
    if es != [] {
      if es[0].Tick? {
        TickKeepsRamp(s, es[0].frame, base);
      }
      GameplayKeepsRamp(Step(s, es[0]), es[1..], base);
    }
  }

  /** Throughout a run begun by a start command, speed and gap are the
      capped and floored linear functions of the score's tens, starting
      from the speed and gap the run began with. */
  lemma RampFollowsScore(s: Session, es: seq<Event>)
    requires forall k :: 0 <= k < |es| ==> Feasible(es[k]) && Gameplay(es[k])
    requires s.gameSpeed <= SpeedCap && s.gap >= GapFloor
    ensures var r := RunGameplay(StartGame(s, true), es);
            && r.gameSpeed == MinReal(s.gameSpeed + SpeedStep * (r.score / RampEvery) as real, SpeedCap)
            && r.gap == MaxReal(s.gap - GapStep * (r.score / RampEvery) as real, GapFloor)
  {
    var base := Pace(s.gameSpeed, s.gap, 0);
    GameplayKeepsRamp(StartGame(s, true), es, base);
    CreditsClosedForm(base, RunGameplay(StartGame(s, true), es).score);
  }

  /** How far the bird's height (its CSS bottom offset, so larger is
      higher) changes over k ticks that start at velocity v:
      each tick first adds 0.5 to the velocity and then the velocity to the
      height. */
  function Climb(v: real, k: nat): real
    decreases k
  {
    if k == 0 then 0.0 else v + TickAcceleration + Climb(v + TickAcceleration, k - 1)
  }

  /** The tick-by-tick climb is k*v + 0.25k(k+1). */
  lemma {:induction false} ClimbClosedForm(v: real, k: nat)
    ensures Climb(v, k) == k as real * v + 0.25 * k as real * (k as real + 1.0)
    decreases k
  {
    if k > 0 {
      ClimbClosedForm(v + TickAcceleration, k - 1);
      var n := (k - 1) as real;
      assert n * (v + TickAcceleration) == n * v + n * TickAcceleration;
      assert (n + 1.0) * v == n * v + v;
      assert 0.25 * (n + 1.0) * (n + 2.0) == 0.25 * n * (n + 1.0) + 0.5 * (n + 1.0);
    }
  }

  /** Starting from velocity v, after k ticks of a run that is still going
      the velocity is v + 0.5k and the height has changed by the climb. */
  lemma {:induction false} FlightFollowsClimb(s: Session, frames: seq<Frame>)
    ensures var r := Ticks(s, frames);
            r.running ==>
              && r.birdVelocity == s.birdVelocity + TickAcceleration * |frames| as real
              && r.birdY == s.birdY + Climb(s.birdVelocity, |frames|)
    decreases |frames|
  {
    if frames != [] {
      if !s.running {
        TicksStayStopped(s, frames);
      } else {
        FlightFollowsClimb(UpdateGame(s, frames[0]), frames[1..]);
      }
    }
  }

  /** A jump followed by k ticks of a run still going: the velocity is
      -8 + 0.5k and the height has changed by the climb from -8, which
      ClimbClosedForm puts at -8k + 0.25k(k+1). */
  lemma JumpArc(s: Session, frames: seq<Frame>)
    requires s.running
    ensures var r := Ticks(Jump(s), frames);
            r.running ==>
              && r.birdVelocity == FlapVelocity + TickAcceleration * |frames| as real
              && r.birdY == s.birdY + Climb(FlapVelocity, |frames|)
  {
    FlightFollowsClimb(Jump(s), frames);
  }

  /** Every pair left of the bird's column has been marked as passed. */
  predicate BehindPassed(obs: seq<Pair>, b: real) {
    forall k :: 0 <= k < |obs| && obs[k].left + PipeWidth < b ==> obs[k].passed
  }

  /** The frame finds the bird and container and reports boxes for the
      first n pairs. */
  predicate Reports(f: Frame, n: nat) {
    f.present && forall i: nat :: i < n ==> BoxAt(f.pairs, i).Some?
  }

  /** If every pair that leaves on this sweep was already passed, nothing
      scores and the ramp does not move. */
  lemma {:induction false} NoCreditWhenLeaversPassed(obs: seq<Pair>, pace: Pace)
    requires forall k :: 0 <= k < |obs| && obs[k].left - pace.speed < ExitLine ==> obs[k].passed
    ensures AdvanceAll(obs, pace).pace == pace
    decreases |obs|
  {
    if obs != [] {
      NoCreditWhenLeaversPassed(obs[1..], pace);
    }
  }

  /** One tick with the bird's left edge at b, where the speed is at most b:
      every pair that leaves was already passed, so the score stays, and
      afterwards every pair left of the bird is passed again. */
  lemma TickScoresNothing(s: Session, f: Frame, b: real)
    requires s.gameSpeed <= b && BirdLeft(f) == b && Reports(f, |s.obstacles|)
    requires BehindPassed(s.obstacles, b)
    ensures var r := UpdateGame(s, f);
            r.score == s.score && r.gameSpeed == s.gameSpeed && BehindPassed(r.obstacles, b)
  {
    if s.running {
      var pace := Pace(s.gameSpeed, s.gap, s.score);
      NoCreditWhenLeaversPassed(s.obstacles, pace);
    }
  }

  /** Every tick's frame places the bird's left edge at b and reports boxes
      for every live pair. */
  predicate Watched(s: Session, es: seq<Event>, b: real)
    requires forall k :: 0 <= k < |es| ==> Feasible(es[k]) && Gameplay(es[k])
    decreases |es|
  {
    es == [] ||
    (&& (es[0].Tick? ==> BirdLeft(es[0].frame) == b && Reports(es[0].frame, |s.obstacles|))
     && Watched(Step(s, es[0]), es[1..], b))
  }

  /** As written, a pair scores only if it leaves the screen while not yet
      marked as passed; but the collision check marks every pair the bird
      is past. With the bird's left edge at b, the speed at most b and b at
      most 470 (so a new pair is never already behind the bird), no pair
      ever scores: the score of a run stays where it started. */
  lemma {:induction false} PassedPairsNeverScore(s: Session, es: seq<Event>, b: real)
    requires forall k :: 0 <= k < |es| ==> Feasible(es[k]) && Gameplay(es[k])
    requires s.gameSpeed <= b <= SpawnLeft + PipeWidth
    requires BehindPassed(s.obstacles, b) && Watched(s, es, b)
    ensures RunGameplay(s, es).score == s.score
    decreases |es|
  {
    if es != [] {
      var s1 := Step(s, es[0]);
      match es[0] {
        case Tick(f) =>
          TickScoresNothing(s, f, b);
        case SpawnTick(rand) =>
          if s.running {
            forall k | 0 <= k < |s1.obstacles| && s1.obstacles[k].left + PipeWidth < b
              ensures s1.obstacles[k].passed
            {
              if k < |s.obstacles| {
                assert s1.obstacles[k] == s1.obstacles[..|s.obstacles|][k];
              }
            }
          }
        case JumpInput =>
      }
      PassedPairsNeverScore(s1, es[1..], b);
    }
  }

  /** The run a start command begins scores nothing under those conditions. */
  lemma StartedRunNeverScores(s: Session, es: seq<Event>, b: real)
    requires forall k :: 0 <= k < |es| ==> Feasible(es[k]) && Gameplay(es[k])
    requires s.gameSpeed <= b <= SpawnLeft + PipeWidth
    requires Watched(StartGame(s, true), es, b)
    ensures RunGameplay(StartGame(s, true), es).score == 0
  {
    PassedPairsNeverScore(StartGame(s, true), es, b);
  }
}

=== FILE: blog_game.dfy ===
/** The game rules of the blog edition (blog-version-js.js): the bird is
    pushed up 50 units per accepted jump and sinks by `gravity` every loop
    tick; each obstacle pair scores once, when its bottom pipe's left edge
    plus the pipe width is strictly left of the bird; every 15 points the
    game speeds up by 0.03 and narrows the gap by 1 while it is above 100.

    The browser is not modelled: element boxes, the clock, the random draw
    and the container size arrive as inputs, and every timer firing is an
    explicit step on the whole state. */
module BlogGame {
  import opened Common
  import opened Geometry

  const JumpCooldown: int := 100
  const JumpLift: real := 50.0
  const PipeWidth: real := 70.0
  const MinPipe: real := 50.0
  const FallbackGround: nat := 80
  const RampEvery: nat := 15
  const SpeedStep: real := 0.03
  const GapFloor: int := 100
  const HomeLeft: real := 150.0
  const HomeBottom: real := 250.0
  const ExitLine: real := -70.0

  /** One live obstacle pair: its horizontal position, the heights drawn at
      spawn time, whether it has already scored, and whether its own
      movement timer is still installed. */
  datatype Obstacle = Obstacle(left: real, bottomHeight: real, topHeight: real, scored: bool, moving: bool)

  /** The whole game: bird, physics and difficulty values, score, the
      obstacle field, the installed timers (game loop, pending spawn) and
      the best score as persisted. */
  datatype Game = Game(
    birdLeft: real,
    birdBottom: real,
    gravity: real,
    isGameOver: bool,
    score: nat,
    gameSpeed: real,
    gap: int,
    lastJumpTime: int,
    difficulty: int,
    obstacles: seq<Obstacle>,
    looping: bool,
    spawning: bool,
    best: nat)

  /** The values the script starts with, before any run; `difficulty` and
      `best` are whatever the stored settings and score say. */
  function Initial(difficulty: int, best: nat): Game {
    Game(HomeLeft, HomeBottom, 1.0, false, 0, 1.2, 180, 0, difficulty, [], false, false, best)
  }

  /* ---------------------------------------------------------------------
     Difficulty presets and the ramp
     --------------------------------------------------------------------- */

  datatype Preset = Preset(gravity: real, gap: int, speed: real)

  /** Easy, medium and hard; any other setting selects nothing. */
  function PresetFor(difficulty: int): (p: Option<Preset>)
    ensures p.Some? <==> 1 <= difficulty <= 3
    ensures p.Some? ==> p.value.gap >= 160 && p.value.speed >= 1.0 && p.value.gravity >= 0.8
  {
    if difficulty == 1 then Some(Preset(0.8, 200, 1.0))
    else if difficulty == 2 then Some(Preset(1.0, 180, 1.2))
    else if difficulty == 3 then Some(Preset(1.2, 160, 1.5))
    else None
  }

  /** The switch in initGameVars: an unknown difficulty leaves gravity, gap
      and speed as they were. */
  function ApplyPreset(g: Game): (r: Game)
    ensures PresetFor(g.difficulty).Some? ==>
              && r.gravity == PresetFor(g.difficulty).value.gravity
              && r.gap == PresetFor(g.difficulty).value.gap
              && r.gameSpeed == PresetFor(g.difficulty).value.speed
    ensures PresetFor(g.difficulty).None? ==> r == g
    ensures r == g.(gravity := r.gravity, gap := r.gap, gameSpeed := r.gameSpeed)
  {
    match PresetFor(g.difficulty)
    case None => g
    case Some(p) => g.(gravity := p.gravity, gap := p.gap, gameSpeed := p.speed)
  }

  /** initGameVars: bird home, no game over, score zero, and for a known
      difficulty its gravity, gap and speed. The obstacle field, the timers,
      the jump clock and the best score are left alone. */
  function InitGameVars(g: Game): (r: Game)
    ensures r.birdLeft == HomeLeft && r.birdBottom == HomeBottom && !r.isGameOver && r.score == 0
    ensures 1 <= g.difficulty <= 3 ==>
              Preset(r.gravity, r.gap, r.gameSpeed) == PresetFor(g.difficulty).value
    ensures !(1 <= g.difficulty <= 3) ==>
              r.gravity == g.gravity && r.gap == g.gap && r.gameSpeed == g.gameSpeed
    ensures r.obstacles == g.obstacles && r.looping == g.looping && r.spawning == g.spawning
    ensures r.lastJumpTime == g.lastJumpTime && r.difficulty == g.difficulty && r.best == g.best
  {
    ApplyPreset(g.(birdLeft := HomeLeft, birdBottom := HomeBottom, isGameOver := false, score := 0))
  }

  /** Speed and gap are a function of the score alone, given the values the
      run started from. */
  predicate OnRamp(g: Game, base: Preset) {
    && g.gameSpeed == base.speed + SpeedStep * (g.score / RampEvery) as real
    && g.gap == (if base.gap > GapFloor then MaxInt(base.gap - g.score / RampEvery, GapFloor) else base.gap)
  }

  /* ---------------------------------------------------------------------
     Obstacle field
     --------------------------------------------------------------------- */

  /** What a spawn reads from its surroundings: the container's offset width
      and height, the ground element's height if it exists, and the random
      draw in [0, 1). */
  datatype SpawnEnv = SpawnEnv(width: nat, height: nat, ground: Option<nat>, rand: real)

  predicate ValidDraw(env: SpawnEnv) {
    0.0 <= env.rand < 1.0
  }

  /** The ground element's height, or 80 when there is no ground element. */
  function GroundHeight(ground: Option<nat>): nat {
    match ground
    case Some(h) => h
    case None => FallbackGround
  }

  /** The height left for the two pipes and the gap. */
  function Playfield(env: SpawnEnv): real {
    env.height as real - GroundHeight(env.ground) as real
  }

  /** generateObstacle: the bottom pipe's height is drawn from
      [50, playfield - gap - 50), the top pipe takes the rest of the
      playfield above the gap, and the pair enters at the container's right
      edge. A missing or zero-width container spawns nothing and schedules
      no further spawn; so does a finished game. */
  function GenerateObstacle(g: Game, env: SpawnEnv): (r: Game)
    requires ValidDraw(env)
    ensures g.isGameOver || env.width == 0 ==> r == g.(spawning := false)
    ensures !g.isGameOver && env.width > 0 ==>
      && r == g.(obstacles := r.obstacles, spawning := true)
      && |r.obstacles| == |g.obstacles| + 1
      && r.obstacles[..|g.obstacles|] == g.obstacles
      && var p := r.obstacles[|g.obstacles|];
         && p.left == env.width as real && !p.scored && p.moving
         && p.bottomHeight + g.gap as real + p.topHeight == Playfield(env)
         && (Playfield(env) - g.gap as real >= 2.0 * MinPipe ==>
               MinPipe <= p.bottomHeight && MinPipe <= p.topHeight)
         && (Playfield(env) - g.gap as real > 2.0 * MinPipe ==>
               p.bottomHeight < Playfield(env) - g.gap as real - MinPipe && p.topHeight > MinPipe)
  {
    if g.isGameOver then g.(spawning := false)
    else if env.width == 0 then g.(spawning := false)
    else
      var maxHeight := Playfield(env) - g.gap as real - MinPipe;
      var bottom := DrawBetween(env.rand, MinPipe, maxHeight);
      var top := Playfield(env) - g.gap as real - bottom;
      g.(obstacles := g.obstacles + [Obstacle(env.width as real, bottom, top, false, true)], spawning := true)
  }

  /** One fire of a pair's movement timer: only a pair whose timer is still
      installed moves, by the current game speed. */
  function Shift(p: Obstacle, speed: real): Obstacle {
    if p.moving then p.(left := p.left - speed) else p
  }

  /** The pair reaches the exit line on this fire and removes itself. */
  predicate Exits(p: Obstacle, speed: real) {
    p.moving && p.left - speed <= ExitLine
  }

  /** Every pair after its timer's fire, in order, before any removal. */
  function ShiftAll(obs: seq<Obstacle>, speed: real): (m: seq<Obstacle>)
    ensures |m| == |obs|
    ensures forall k :: 0 <= k < |obs| ==> m[k] == Shift(obs[k], speed)
  {
    seq(|obs|, k requires 0 <= k < |obs| => Shift(obs[k], speed))
  }

  /** A pair, once shifted, is moving and at or past the exit line. */
  predicate Gone(q: Obstacle) {
    q.moving && q.left <= ExitLine
  }

  /** The shifted pairs that stay, in order. */
  function Remaining(ps: seq<Obstacle>): seq<Obstacle> {
    if ps == [] then [] else (if Gone(ps[0]) then [] else [ps[0]]) + Remaining(ps[1..])
  }

  /** The shifted pairs that remove themselves, in order. */
  function Removed(ps: seq<Obstacle>): seq<Obstacle> {
    if ps == [] then [] else (if Gone(ps[0]) then [ps[0]] else []) + Removed(ps[1..])
  }

  /** moveObstacle for every pair at once: moving pairs shift left, and a
      pair that reaches the exit line is removed. Frozen pairs stay put and
      are never removed. The result is the shifted field with exactly the
      exiting pairs filtered out, every other pair once and in order. */
  function MoveAll(obs: seq<Obstacle>, speed: real): (r: seq<Obstacle>)
    ensures r == Remaining(ShiftAll(obs, speed))
    ensures |r| <= |obs|
    ensures forall q :: q in r ==> exists p :: p in obs && !Exits(p, speed) && q == Shift(p, speed)
    ensures forall p :: p in obs && !Exits(p, speed) ==> Shift(p, speed) in r
    ensures forall q :: q in r ==> !q.moving || q.left > ExitLine
  {
    if obs == [] then []
    else
      var rest := MoveAll(obs[1..], speed);
      assert forall p :: p in obs[1..] ==> p in obs;
      ShiftAllCons(obs, speed);
      if Exits(obs[0], speed) then rest else [Shift(obs[0], speed)] + rest
  }

  /** Shifting a field is shifting its first pair in front of the rest. */
  lemma ShiftAllCons(obs: seq<Obstacle>, speed: real)
    requires obs != []
    ensures ShiftAll(obs, speed)[0] == Shift(obs[0], speed)
    ensures ShiftAll(obs, speed)[1..] == ShiftAll(obs[1..], speed)
    ensures Exits(obs[0], speed) <==> Gone(Shift(obs[0], speed))
  {
  }

  /** The pairs kept and the pairs removed are, together, exactly the
      shifted pairs: none is lost and none is duplicated. */
  lemma {:induction false} RemovalIsPartition(ps: seq<Obstacle>)
    ensures multiset(Remaining(ps)) + multiset(Removed(ps)) == multiset(ps)
    ensures forall q :: q in Removed(ps) ==> Gone(q)
    ensures forall q :: q in Remaining(ps) ==> !Gone(q)
    decreases |ps|
  {
    if ps != [] {
      RemovalIsPartition(ps[1..]);
      assert ps == [ps[0]] + ps[1..];
    }
  }

  /** One obstacle tick removes exactly the pairs that reach the exit line:
      the pairs left and the pairs removed make up the shifted field, as a
      multiset, and a pair is removed exactly when it exits. */
  lemma MoveAllRemovesExactlyExiting(obs: seq<Obstacle>, speed: real)
    ensures var m := ShiftAll(obs, speed);
            && multiset(MoveAll(obs, speed)) + multiset(Removed(m)) == multiset(m)
            && forall k :: 0 <= k < |obs| ==> (m[k] in Removed(m) <==> Exits(obs[k], speed))
  {
    var m := ShiftAll(obs, speed);
    RemovalIsPartition(m);
    forall k | 0 <= k < |obs|
      ensures m[k] in Removed(m) <==> Exits(obs[k], speed)
    {
      assert m[k] in m;
      if m[k] in Removed(m) {
        assert Gone(m[k]);
      } else {
        assert m[k] in multiset(m);
        assert m[k] in Remaining(m);
      }
    }
  }

  lemma ConsAppend<T>(a: seq<T>, x: seq<T>)
    requires a != []
    ensures [a[0]] + (a[1..] + x) == a + x
  {
    assert a == [a[0]] + a[1..];
  }

  /** A frozen first pair stays first and untouched. */
  lemma FrozenHeadStays(obs: seq<Obstacle>, speed: real)
    requires obs != [] && !obs[0].moving
    ensures MoveAll(obs, speed) == [obs[0]] + MoveAll(obs[1..], speed)
  {
  }

  /** Pairs whose timers are gone, at the front of the field, stay at the
      front untouched while the pairs behind them move. */
  lemma {:induction false} FrozenPrefixStays(a: seq<Obstacle>, b: seq<Obstacle>, speed: real)
    requires forall k :: 0 <= k < |a| ==> !a[k].moving
    ensures MoveAll(a + b, speed) == a + MoveAll(b, speed)
    decreases |a|
  {
    if a != [] {
      var ab := a + b;
      assert ab[0] == a[0] && ab[1..] == a[1..] + b;
      FrozenHeadStays(ab, speed);
      FrozenPrefixStays(a[1..], b, speed);
      ConsAppend(a, MoveAll(b, speed));
    } else {
      assert a + b == b;
    }
  }

  /** All obstacle timers firing once. After a game over the state is left
      as it is: the game-over step already stopped every pair's timer. */
  function MoveObstacles(g: Game): (r: Game)
    ensures g.isGameOver ==> r == g
    ensures r == g.(obstacles := r.obstacles)
    ensures !g.isGameOver ==> r.obstacles == MoveAll(g.obstacles, g.gameSpeed)
  {
    if g.isGameOver then g else g.(obstacles := MoveAll(g.obstacles, g.gameSpeed))
  }

  /* ---------------------------------------------------------------------
     Collision and scoring
     --------------------------------------------------------------------- */

  /** The boxes one game-loop tick reads from the page: the bird, the game
      container, the ground element's height if there is one, and the
      boxes of each live pair (in the order of the live pairs). */
  datatype Frame = Frame(bird: Rect, container: Rect, ground: Option<nat>, pairs: seq<Option<PairBoxes>>)

  /** The bird's box in container coordinates. */
  function BirdBox(f: Frame): Rect {
    RelativeTo(f.bird, f.container)
  }

  predicate HitsFloor(f: Frame) {
    BirdBox(f).bottom >= Height(f.container) - GroundHeight(f.ground) as real
  }

  predicate HitsCeiling(f: Frame) {
    BirdBox(f).top <= 0.0
  }

  predicate OutOfBounds(f: Frame) {
    HitsFloor(f) || HitsCeiling(f)
  }

  predicate HitsBottomPipe(f: Frame, i: nat) {
    BoxAt(f.pairs, i).Some? && Overlaps(BirdBox(f), RelativeTo(BoxAt(f.pairs, i).value.bottom, f.container))
  }

  predicate HitsTopPipe(f: Frame, i: nat) {
    BoxAt(f.pairs, i).Some? && Overlaps(BirdBox(f), RelativeTo(BoxAt(f.pairs, i).value.top, f.container))
  }

  /** The bird collides with the i-th pair. */
  predicate HitsPair(f: Frame, i: nat) {
    HitsBottomPipe(f, i) || HitsTopPipe(f, i)
  }

  /** The i-th pair's bottom pipe, plus the pipe width, is strictly left of
      the bird. */
  predicate PassesPair(f: Frame, i: nat) {
    BoxAt(f.pairs, i).Some? && RelativeTo(BoxAt(f.pairs, i).value.bottom, f.container).left + PipeWidth < BirdBox(f).left
  }

  /** No pair from index i through index k collides with the bird. */
  predicate ClearThrough(f: Frame, i: nat, k: nat) {
    forall j: nat :: i <= j <= k ==> !HitsPair(f, j)
  }

  /** Some pair from index i on (among n) collides with the bird. */
  predicate SomeHitFrom(f: Frame, i: nat, n: nat) {
    exists j: nat :: i <= j < n && HitsPair(f, j)
  }

  /** The number of pairs that have scored. */
  function ScoredCount(obs: seq<Obstacle>): (c: nat)
    ensures c <= |obs|
  {
    if obs == [] then 0 else (if obs[0].scored then 1 else 0) + ScoredCount(obs[1..])
  }

  /** The same pair, apart from its flags. */
  predicate SamePlace(p: Obstacle, q: Obstacle) {
    p.left == q.left && p.bottomHeight == q.bottomHeight && p.topHeight == q.topHeight
  }

  /** Every pair's timer is stopped, and neither the game loop nor a spawn
      is pending. */
  predicate Quiet(g: Game) {
    && !g.looping
    && !g.spawning
    && forall k :: 0 <= k < |g.obstacles| ==> !g.obstacles[k].moving
  }

  /** The speed has not dropped, and a gap at or above the floor has
      stayed at or above it without widening. */
  predicate RampKept(g: Game, r: Game) {
    && r.gameSpeed >= g.gameSpeed
    && (g.gap >= GapFloor ==> GapFloor <= r.gap <= g.gap)
  }

  /** The bird's own values are untouched. */
  predicate SameBird(r: Game, g: Game) {
    && r.birdLeft == g.birdLeft && r.birdBottom == g.birdBottom && r.gravity == g.gravity
    && r.lastJumpTime == g.lastJumpTime && r.difficulty == g.difficulty
  }

  function Halt(obs: seq<Obstacle>): (r: seq<Obstacle>)
    ensures |r| == |obs|
    ensures forall k :: 0 <= k < |obs| ==> r[k] == obs[k].(moving := false)
  {
    seq(|obs|, k requires 0 <= k < |obs| => obs[k].(moving := false))
  }

  /** gameOver: the game stops, every timer is cleared, and the persisted
      best score becomes the larger of itself and this run's score. The
      score and the obstacle field stay as they are. */
  function GameOver(g: Game): (r: Game)
    ensures r.isGameOver && Quiet(r)
    ensures r.best >= g.best && r.best >= g.score && (r.best == g.best || r.best == g.score)
    ensures r.best != g.best <==> g.score > g.best
    ensures r.score == g.score && SameBird(r, g) && r.gameSpeed == g.gameSpeed && r.gap == g.gap
    ensures |r.obstacles| == |g.obstacles|
    ensures forall k :: 0 <= k < |g.obstacles| ==>
              SamePlace(r.obstacles[k], g.obstacles[k]) && r.obstacles[k].scored == g.obstacles[k].scored
  {
    g.(isGameOver := true, looping := false, spawning := false,
       obstacles := Halt(g.obstacles), best := SettleBest(g.best, g.score).best)
  }

  /** A pair is credited: it is marked scored, the score rises by one, and
      on every fifteenth point the ramp speeds up and narrows the gap while
      the gap is above the floor. */
  function ScorePair(g: Game, i: nat): (r: Game)
    requires i < |g.obstacles|
    ensures r.score == g.score + 1
    ensures r.obstacles == g.obstacles[i := g.obstacles[i].(scored := true)]
    ensures r.gameSpeed >= g.gameSpeed
    ensures g.gap >= GapFloor ==> GapFloor <= r.gap <= g.gap
    ensures r.gap != g.gap ==> r.gap == g.gap - 1
    ensures r.(obstacles := g.obstacles, score := g.score, gameSpeed := g.gameSpeed, gap := g.gap) == g
  {
    var score := g.score + 1;
    var credited := g.(obstacles := g.obstacles[i := g.obstacles[i].(scored := true)], score := score);
    if score % RampEvery == 0 then
      credited.(gameSpeed := g.gameSpeed + SpeedStep, gap := if g.gap > GapFloor then g.gap - 1 else g.gap)
    else credited
  }

  /** The obstacle loop of checkAllCollisions from index i on: a collision
      with either pipe ends the game at once; otherwise a pair that the
      bird has passed and that has not scored yet is credited. */
  function Scan(g: Game, f: Frame, i: nat): (r: Game)
    requires i <= |g.obstacles|
    ensures |r.obstacles| == |g.obstacles| && SameBird(r, g)
    ensures forall k :: 0 <= k < |g.obstacles| ==> SamePlace(r.obstacles[k], g.obstacles[k])
    ensures forall k :: 0 <= k < i ==> r.obstacles[k].scored == g.obstacles[k].scored
    ensures forall k :: i <= k < |g.obstacles| ==>
              (r.obstacles[k].scored <==> g.obstacles[k].scored || (PassesPair(f, k) && ClearThrough(f, i, k)))
    ensures r.isGameOver <==> g.isGameOver || SomeHitFrom(f, i, |g.obstacles|)
    ensures r.score + ScoredCount(g.obstacles) == g.score + ScoredCount(r.obstacles)
    ensures RampKept(g, r)
    decreases |g.obstacles| - i
  {
    if i == |g.obstacles| then g
    else if HitsBottomPipe(f, i) then HaltedAt(g, f, i)
    else if HitsTopPipe(f, i) then HaltedAt(g, f, i)
    else
      ClearPast(f, i, |g.obstacles|);
      if BoxAt(f.pairs, i).None? then Scan(g, f, i + 1)
      else if PassesPair(f, i) && !g.obstacles[i].scored then
        CountAfterCredit(g.obstacles, i);
        Scan(ScorePair(g, i), f, i + 1)
      else Scan(g, f, i + 1)
  }

  /** Past a pair that does not collide, the scan from the next index sees
      the same hits. */
  lemma ClearPast(f: Frame, i: nat, n: nat)
    requires i < n && !HitsPair(f, i)
    ensures SomeHitFrom(f, i, n) <==> SomeHitFrom(f, i + 1, n)
    ensures ClearThrough(f, i, i)
    ensures forall k: nat :: i < k ==> (ClearThrough(f, i, k) <==> ClearThrough(f, i + 1, k))
  {
  }

  /** The game-over branch of the scan, at a pair that collides. */
  function HaltedAt(g: Game, f: Frame, i: nat): (r: Game)
    requires i < |g.obstacles| && HitsPair(f, i)
    ensures r == GameOver(g)
    ensures ScoredCount(r.obstacles) == ScoredCount(g.obstacles)
    ensures forall k :: i <= k < |g.obstacles| ==> !ClearThrough(f, i, k)
    ensures SomeHitFrom(f, i, |g.obstacles|)
  {
    SameFlagsSameCount(GameOver(g).obstacles, g.obstacles);
    GameOver(g)
  }

  /** checkAllCollisions: the floor and the ceiling are checked first and
      end the game before any pair is looked at; then the pairs are
      scanned in order. */
  function CheckAllCollisions(g: Game, f: Frame): (r: Game)
    ensures |r.obstacles| == |g.obstacles| && SameBird(r, g)
    ensures forall k :: 0 <= k < |g.obstacles| ==> SamePlace(r.obstacles[k], g.obstacles[k])
    ensures r.isGameOver <==> g.isGameOver || OutOfBounds(f) || SomeHitFrom(f, 0, |g.obstacles|)
    ensures OutOfBounds(f) ==> r.score == g.score
    ensures forall k :: 0 <= k < |g.obstacles| ==>
              (r.obstacles[k].scored <==>
                 g.obstacles[k].scored || (!OutOfBounds(f) && PassesPair(f, k) && ClearThrough(f, 0, k)))
    ensures r.score + ScoredCount(g.obstacles) == g.score + ScoredCount(r.obstacles)
    ensures RampKept(g, r)
  {
    if HitsFloor(f) then OverBeforeScan(g)
    else if HitsCeiling(f) then OverBeforeScan(g)
    else Scan(g, f, 0)
  }

  /** The bounds branch: the game ends with every flag as it was. */
  function OverBeforeScan(g: Game): (r: Game)
    ensures r == GameOver(g)
    ensures ScoredCount(r.obstacles) == ScoredCount(g.obstacles)
  {
    SameFlagsSameCount(GameOver(g).obstacles, g.obstacles);
    GameOver(g)
  }

  /** gameLoop: nothing happens once the game is over; otherwise the bird
      sinks by `gravity` and the collisions are checked: the game ends
      exactly when the bird is out of bounds or hits a pair, and the pairs
      it has cleanly passed are scored. */
  function GameLoop(g: Game, f: Frame): (r: Game)
    ensures g.isGameOver ==> r == g
    ensures !g.isGameOver ==> r.birdBottom == g.birdBottom - g.gravity
    ensures r.gravity == g.gravity && r.birdLeft == g.birdLeft
    ensures g.isGameOver ==> r.isGameOver
    ensures |r.obstacles| == |g.obstacles|
    ensures r.score + ScoredCount(g.obstacles) == g.score + ScoredCount(r.obstacles)
    ensures forall k :: 0 <= k < |g.obstacles| ==> g.obstacles[k].scored ==> r.obstacles[k].scored
    ensures !g.isGameOver ==> (r.isGameOver <==> OutOfBounds(f) || SomeHitFrom(f, 0, |g.obstacles|))
    ensures !g.isGameOver ==>
              forall k :: 0 <= k < |g.obstacles| ==>
                (r.obstacles[k].scored <==>
                   g.obstacles[k].scored || (!OutOfBounds(f) && PassesPair(f, k) && ClearThrough(f, 0, k)))
    ensures RampKept(g, r)
  {
    if g.isGameOver then g
    else
      var sunk := g.(birdBottom := g.birdBottom - g.gravity);
      CheckAllCollisions(sunk, f)
  }

  /* ---------------------------------------------------------------------
     Jumping
     --------------------------------------------------------------------- */

  /** jump: 50 units up, with no upper clamp, unless the game is over. */
  function Jump(g: Game): Game {
    if g.isGameOver then g else g.(birdBottom := g.birdBottom + JumpLift)
  }

  /** The cooldown rule of handleJump. */
  predicate JumpAccepted(g: Game, now: int) {
    now - g.lastJumpTime > JumpCooldown && !g.isGameOver
  }

  /** handleJump: a jump more than 100 ms after the last accepted one, in a
      game that is not over, lifts the bird by exactly 50 and records the
      time; any other request changes nothing. */
  function HandleJump(g: Game, now: int): (r: Game)
    ensures JumpAccepted(g, now) ==>
              r.birdBottom == g.birdBottom + JumpLift && r.lastJumpTime == now
              && r.(birdBottom := g.birdBottom, lastJumpTime := g.lastJumpTime) == g
    ensures !JumpAccepted(g, now) ==> r == g
  {
    if now - g.lastJumpTime > JumpCooldown && !g.isGameOver then Jump(g.(lastJumpTime := now)) else g
  }

  /* ---------------------------------------------------------------------
     Session lifecycle
     --------------------------------------------------------------------- */

  /** startGame: refused when the page's elements are missing (`ready` is
      false); otherwise the run variables are reset and the preset applied,
      the game loop is installed and the first pair is spawned at once. A
      container without width spawns nothing, and then a spawn already
      pending stays pending. */
  function StartGame(g: Game, ready: bool, env: SpawnEnv): (r: Game)
    requires ValidDraw(env)
    ensures !ready ==> r == g
    ensures ready ==>
      && !r.isGameOver && r.score == 0 && r.looping
      && r.birdLeft == HomeLeft && r.birdBottom == HomeBottom
      && |g.obstacles| <= |r.obstacles| <= |g.obstacles| + 1
      && r.obstacles[..|g.obstacles|] == g.obstacles
      && r.best == g.best && r.difficulty == g.difficulty && r.lastJumpTime == g.lastJumpTime
      && (env.width == 0 ==> r.obstacles == g.obstacles && r.spawning == g.spawning)
      && (env.width > 0 ==> |r.obstacles| == |g.obstacles| + 1 && r.spawning)
    ensures ready && 1 <= g.difficulty <= 3 ==>
              Preset(r.gravity, r.gap, r.gameSpeed) == PresetFor(g.difficulty).value
    ensures ready && !(1 <= g.difficulty <= 3) ==>
              r.gravity == g.gravity && r.gap == g.gap && r.gameSpeed == g.gameSpeed
  {
    if !ready then g
    else if env.width == 0 then InitGameVars(g).(looping := true)
    else GenerateObstacle(InitGameVars(g).(looping := true), env)
  }

  /** restartGame: every timer is cleared, the obstacle field emptied, the
      score zeroed and the bird put home before the game starts again. The
      pending spawn is cancelled, so the new run has exactly the one pair
      its start spawns, or none (and no spawn pending) in a container
      without width. */
  function RestartGame(g: Game, ready: bool, env: SpawnEnv): (r: Game)
    requires ValidDraw(env)
    ensures !ready ==> r == g
    ensures ready ==>
      && !r.isGameOver && r.score == 0 && r.looping
      && r.birdLeft == HomeLeft && r.birdBottom == HomeBottom
      && |r.obstacles| == (if env.width > 0 then 1 else 0)
      && (r.spawning <==> env.width > 0)
      && (forall k :: 0 <= k < |r.obstacles| ==>
            !r.obstacles[k].scored && r.obstacles[k].moving && r.obstacles[k].left == env.width as real)
      && r.best == g.best && r.difficulty == g.difficulty && r.lastJumpTime == g.lastJumpTime
    ensures ready && 1 <= g.difficulty <= 3 ==>
              Preset(r.gravity, r.gap, r.gameSpeed) == PresetFor(g.difficulty).value
    ensures ready && !(1 <= g.difficulty <= 3) ==>
              r.gravity == g.gravity && r.gap == g.gap && r.gameSpeed == g.gameSpeed
  {
    if !ready then g
    else
      var cleared := g.(looping := false, spawning := false, obstacles := [], isGameOver := false,
                        score := 0, birdLeft := HomeLeft, birdBottom := HomeBottom);
      StartGame(cleared, true, env)
  }

  /** showMainMenu: the game loop is cleared and the run variables reset,
      the difficulty preset included. The obstacle field, a pending spawn,
      the jump clock, the difficulty and the best score are left as they
      are. */
  function ShowMainMenu(g: Game): (r: Game)
    ensures !r.isGameOver && !r.looping && r.score == 0
    ensures r.obstacles == g.obstacles && r.spawning == g.spawning && r.best == g.best
    ensures r.birdLeft == HomeLeft && r.birdBottom == HomeBottom
    ensures r.lastJumpTime == g.lastJumpTime && r.difficulty == g.difficulty
    ensures 1 <= g.difficulty <= 3 ==>
              Preset(r.gravity, r.gap, r.gameSpeed) == PresetFor(g.difficulty).value
    ensures !(1 <= g.difficulty <= 3) ==>
              r.gravity == g.gravity && r.gap == g.gap && r.gameSpeed == g.gameSpeed
  {
    InitGameVars(g.(looping := false, isGameOver := false))
  }

  /** The difficulty slider: only a value from 1 to 3 is taken. */
  function SetDifficulty(g: Game, value: int): (r: Game)
    ensures r == g.(difficulty := r.difficulty)
    ensures 1 <= value <= 3 ==> r.difficulty == value
    ensures !(1 <= value <= 3) ==> r.difficulty == g.difficulty
    ensures 1 <= g.difficulty <= 3 ==> PresetFor(r.difficulty).Some?
  {
    if 1 <= value <= 3 then g.(difficulty := value) else g
  }

  /* ---------------------------------------------------------------------
     Events
     --------------------------------------------------------------------- */

  /** Everything that can happen to the game: the three kinds of timer
      firing, a jump request at a time in milliseconds, and the player's
      commands. */
  datatype Event =
    | LoopTick(frame: Frame)
    | ObstacleTick
    | SpawnTick(env: SpawnEnv)
    | JumpInput(now: int)
    | StartCommand(ready: bool, start: SpawnEnv)
    | RestartCommand(ready: bool, start: SpawnEnv)
    | MenuCommand
    | DifficultyInput(value: int)

  predicate Feasible(e: Event) {
    match e
    case SpawnTick(env) => ValidDraw(env)
    case StartCommand(_, env) => ValidDraw(env)
    case RestartCommand(_, env) => ValidDraw(env)
    case _ => true
  }

  /** Events that belong to a run in progress rather than to the menus. */
  predicate Gameplay(e: Event) {
    e.LoopTick? || e.ObstacleTick? || e.SpawnTick? || e.JumpInput?
  }

  /** A timer only fires while it is installed. */
  function Step(g: Game, e: Event): Game
    requires Feasible(e)
  {
    match e
    case LoopTick(f) => if g.looping then GameLoop(g, f) else g
    case ObstacleTick => MoveObstacles(g)
    case SpawnTick(env) => if g.spawning then GenerateObstacle(g, env) else g
    case JumpInput(now) => HandleJump(g, now)
    case StartCommand(ready, env) => StartGame(g, ready, env)
    case RestartCommand(ready, env) => RestartGame(g, ready, env)
    case MenuCommand => ShowMainMenu(g)
    case DifficultyInput(v) => SetDifficulty(g, v)
  }

  function Run(g: Game, es: seq<Event>): Game
    requires forall k :: 0 <= k < |es| ==> Feasible(es[k])
    decreases |es|
  {
    if es == [] then g else Run(Step(g, es[0]), es[1..])
  }

  /** Loop ticks alone, with no other event in between. */
  function Ticks(g: Game, frames: seq<Frame>): Game
    decreases |frames|
  {
    if frames == [] then g else Ticks(GameLoop(g, frames[0]), frames[1..])
  }

  /* ---------------------------------------------------------------------
     Lemmas
     --------------------------------------------------------------------- */

  lemma {:induction false} SameFlagsSameCount(a: seq<Obstacle>, b: seq<Obstacle>)
    requires |a| == |b|
    requires forall k :: 0 <= k < |a| ==> a[k].scored == b[k].scored
    ensures ScoredCount(a) == ScoredCount(b)
    decreases |a|
  {
    if a != [] {
      SameFlagsSameCount(a[1..], b[1..]);
    }
  }

  /** Crediting one unscored pair raises the count of scored pairs by one. */
  lemma {:induction false} CountAfterCredit(obs: seq<Obstacle>, i: nat)
    requires i < |obs| && !obs[i].scored
    ensures ScoredCount(obs[i := obs[i].(scored := true)]) == ScoredCount(obs) + 1
    decreases i
  {
    var upd := obs[i := obs[i].(scored := true)];
    if i > 0 {
      assert upd[1..] == obs[1..][i - 1 := obs[i].(scored := true)];
      CountAfterCredit(obs[1..], i - 1);
    } else {
      assert upd[1..] == obs[1..];
    }
  }

  /** Crediting a pair keeps speed and gap on the ramp. */
  lemma ScorePairKeepsRamp(g: Game, i: nat, base: Preset)
    requires i < |g.obstacles| && OnRamp(g, base)
    ensures OnRamp(ScorePair(g, i), base)
  {
    var s := g.score + 1;
    assert s % RampEvery == 0 ==> s / RampEvery == g.score / RampEvery + 1;
    assert s % RampEvery != 0 ==> s / RampEvery == g.score / RampEvery;
  }

  lemma {:induction false} ScanKeepsRamp(g: Game, f: Frame, i: nat, base: Preset)
    requires i <= |g.obstacles| && OnRamp(g, base)
    ensures OnRamp(Scan(g, f, i), base)
    decreases |g.obstacles| - i
  {
    if i == |g.obstacles| {
    } else if BoxAt(f.pairs, i).None? {
      ScanKeepsRamp(g, f, i + 1, base);
    } else if HitsBottomPipe(f, i) || HitsTopPipe(f, i) {
    } else if PassesPair(f, i) && !g.obstacles[i].scored {
      ScorePairKeepsRamp(g, i, base);
      ScanKeepsRamp(ScorePair(g, i), f, i + 1, base);
    } else {
      ScanKeepsRamp(g, f, i + 1, base);
    }
  }

  /** Every event of a run in progress keeps speed and gap on the ramp. */
  lemma GameplayKeepsRamp(g: Game, e: Event, base: Preset)
    requires Feasible(e) && Gameplay(e) && OnRamp(g, base)
    ensures OnRamp(Step(g, e), base)
  {
    match e
    case LoopTick(f) =>
      if g.looping && !g.isGameOver {
        var sunk := g.(birdBottom := g.birdBottom - g.gravity);
        if !OutOfBounds(f) {
          ScanKeepsRamp(sunk, f, 0, base);
        }
      }
    case ObstacleTick =>
    case SpawnTick(env) =>
    case JumpInput(now) =>
  }

  function RunGameplay(g: Game, es: seq<Event>): Game
    requires forall k :: 0 <= k < |es| ==> Feasible(es[k]) && Gameplay(es[k])
    decreases |es|
  {
    if es == [] then g else RunGameplay(Step(g, es[0]), es[1..])
  }

  /** Starting from a preset and playing on, the gap never drops below 100
      nor rises above the preset's, and the speed never drops below the
      preset's: speed and gap stay the functions of the score that the ramp
      defines. */
  lemma {:induction false} RampRespectsFloor(g: Game, env: SpawnEnv, es: seq<Event>)
    requires 1 <= g.difficulty <= 3 && ValidDraw(env)
    requires forall k :: 0 <= k < |es| ==> Feasible(es[k]) && Gameplay(es[k])
    ensures var base := PresetFor(g.difficulty).value;
            var r := RunGameplay(StartGame(g, true, env), es);
            && OnRamp(r, base)
            && GapFloor <= r.gap <= base.gap
            && r.gameSpeed >= base.speed
  {
    var base := PresetFor(g.difficulty).value;
    RunKeepsRamp(StartGame(g, true, env), es, base);
  }

  lemma {:induction false} RunKeepsRamp(g: Game, es: seq<Event>, base: Preset)
    requires forall k :: 0 <= k < |es| ==> Feasible(es[k]) && Gameplay(es[k])
    requires OnRamp(g, base)
    ensures OnRamp(RunGameplay(g, es), base)
    decreases |es|
  {
    if es != [] {
      GameplayKeepsRamp(g, es[0], base);
      RunKeepsRamp(Step(g, es[0]), es[1..], base);
    }
  }

  /** Every event, menus and restarts included, keeps the gap at or above
      100: the ramp stops at the floor and every preset is above it. */
  lemma StepKeepsGapFloor(g: Game, e: Event)
    requires Feasible(e) && g.gap >= GapFloor
    ensures Step(g, e).gap >= GapFloor
  {
  }

  lemma {:induction false} RunKeepsGapFloor(g: Game, es: seq<Event>)
    requires forall k :: 0 <= k < |es| ==> Feasible(es[k])
    requires g.gap >= GapFloor
    ensures Run(g, es).gap >= GapFloor
    decreases |es|
  {
    if es != [] {
      StepKeepsGapFloor(g, es[0]);
      RunKeepsGapFloor(Step(g, es[0]), es[1..]);
    }
  }

  /** From the script's starting values, whatever the player does, the gap
      never drops below 100. */
  lemma GapNeverBelowFloor(difficulty: int, best: nat, es: seq<Event>)
    requires forall k :: 0 <= k < |es| ==> Feasible(es[k])
    ensures Run(Initial(difficulty, best), es).gap >= GapFloor
  {
    RunKeepsGapFloor(Initial(difficulty, best), es);
  }

  /** Once the game is over and quiet, no timer firing and no jump request
      changes anything: only a restart or the menu leaves the state. */
  lemma {:induction false} GameOverIsAbsorbing(g: Game, es: seq<Event>)
    requires g.isGameOver && Quiet(g)
    requires forall k :: 0 <= k < |es| ==> Feasible(es[k]) && Gameplay(es[k])
    ensures RunGameplay(g, es) == g
    decreases |es|
  {
    if es != [] {
      assert Step(g, es[0]) == g;
      GameOverIsAbsorbing(g, es[1..]);
    }
  }

  /** Every game over reaches such a state. */
  lemma GameOverThenNothing(g: Game, es: seq<Event>)
    requires forall k :: 0 <= k < |es| ==> Feasible(es[k]) && Gameplay(es[k])
    ensures RunGameplay(GameOver(g), es) == GameOver(g)
  {
    GameOverIsAbsorbing(GameOver(g), es);
  }

  lemma {:induction false} TicksStayOver(g: Game, frames: seq<Frame>)
    requires g.isGameOver
    ensures Ticks(g, frames) == g
    decreases |frames|
  {
    if frames != [] {
      TicksStayOver(g, frames[1..]);
    }
  }

  /** Where a height ends after n drops of x each. */
  function Fallen(b: real, x: real, n: nat): real
    decreases n
  {
    if n == 0 then b else Fallen(b - x, x, n - 1)
  }

  /** n drops of x are one drop of n * x. */
  lemma {:induction false} FallenClosedForm(b: real, x: real, n: nat)
    ensures Fallen(b, x, n) == b - n as real * x
    decreases n
  {
    if n > 0 {
      FallenClosedForm(b - x, x, n - 1);
      assert (n - 1) as real * x + x == n as real * x;
    }
  }

  /** Without jumps the bird sinks by exactly `gravity` per tick for as long
      as the game lasts: after k ticks it has fallen k times, which
      FallenClosedForm puts at k * gravity below where it started. */
  lemma {:induction false} FallWithoutJumps(g: Game, frames: seq<Frame>)
    ensures var r := Ticks(g, frames);
            !r.isGameOver ==> r.birdBottom == Fallen(g.birdBottom, g.gravity, |frames|)
    decreases |frames|
  {
    if frames != [] {
      if g.isGameOver {
        TicksStayOver(g, frames);
      } else {
        FallWithoutJumps(GameLoop(g, frames[0]), frames[1..]);
      }
    }
  }

  /** Over any number of ticks, the score rises by exactly the number of
      pairs that became scored, so each pair adds at most one point and the
      rise is bounded by the number of pairs that had not scored yet. */
  lemma {:induction false} EachPairScoresOnce(g: Game, frames: seq<Frame>)
    ensures var r := Ticks(g, frames);
            && |r.obstacles| == |g.obstacles|
            && r.score + ScoredCount(g.obstacles) == g.score + ScoredCount(r.obstacles)
            && r.score <= g.score + (|g.obstacles| - ScoredCount(g.obstacles))
    decreases |frames|
  {
    if frames != [] {
      EachPairScoresOnce(GameLoop(g, frames[0]), frames[1..]);
    }
  }

  /** Two accepted jumps are more than the cooldown apart. */
  lemma AcceptedJumpsAreSpaced(g: Game, t1: int, t2: int)
    requires JumpAccepted(g, t1) && JumpAccepted(HandleJump(g, t1), t2)
    ensures t2 - t1 > JumpCooldown
  {
  }

  /** Going to the menu after a game over and starting again keeps the old
      run's pairs in the field, frozen where they stopped: their timers are
      gone, obstacle ticks never move or remove them, and the new run's
      collision checks still see them. */
  lemma StaleObstaclesSurviveMenuStart(g: Game, env: SpawnEnv)
    requires ValidDraw(env)
    ensures var stale := GameOver(g).obstacles;
            var r := StartGame(ShowMainMenu(GameOver(g)), true, env);
            && !r.isGameOver && r.looping
            && |stale| <= |r.obstacles|
            && r.obstacles[..|stale|] == stale
            && (forall k :: 0 <= k < |stale| ==> !r.obstacles[k].moving)
            && |stale| <= |MoveObstacles(r).obstacles|
            && MoveObstacles(r).obstacles[..|stale|] == stale
  {
    var stale := GameOver(g).obstacles;
    var r := StartGame(ShowMainMenu(GameOver(g)), true, env);
    var added := r.obstacles[|stale|..];
    assert r.obstacles == stale + added;
    FrozenPrefixStays(stale, added, r.gameSpeed);
  }
}

=== FILE: common.dfy ===
/** Small building blocks shared by both game variants: an optional value,
    minimum and maximum on reals and integers, and the best-score rule that
    both game-over routines apply. */
module Common {

  /** A value that may be absent, such as a DOM element that was not found. */
  datatype Option<+T> = None | Some(value: T)

  function MinReal(a: real, b: real): (m: real)
    ensures m <= a && m <= b
    ensures m == a || m == b
  {
    if a <= b then a else b
  }

  function MaxReal(a: real, b: real): (m: real)
    ensures m >= a && m >= b
    ensures m == a || m == b
  {
    if a >= b then a else b
  }

  function MaxInt(a: int, b: int): (m: int)
    ensures m >= a && m >= b
    ensures m == a || m == b
  {
    if a >= b then a else b
  }

  /** What a finished run leaves behind: the best score to persist, and
      whether the run set a new record. */
  datatype Settlement = Settlement(best: nat, isNewRecord: bool)

  /** Both game-over routines replace the best score only when the run's
      score is strictly higher. */
  function SettleBest(prev: nat, score: nat): (s: Settlement)
    ensures s.best >= prev && s.best >= score
    ensures s.best == prev || s.best == score
    ensures s.isNewRecord <==> score > prev
    ensures s.isNewRecord <==> s.best != prev
  {
    if score > prev then Settlement(score, true) else Settlement(prev, false)
  }

  /** A draw from [0, 1) scaled by a non-negative span is never negative
      and never beyond the span. */
  lemma ScaleWithin(rand: real, d: real)
    requires 0.0 <= rand < 1.0 && d >= 0.0
    ensures 0.0 <= rand * d <= d
  {
    var rest := 1.0 - rand;
    assert rest * d >= 0.0 by { assert rest >= 0.0; }
    assert rand * d >= 0.0 by { assert rand >= 0.0; }
    assert rand * d + rest * d == d;
  }

  /** A draw from [0, 1) scaled by a positive span falls short of it. */
  lemma ScaleShort(rand: real, d: real)
    requires 0.0 <= rand < 1.0 && d > 0.0
    ensures rand * d < d
  {
    var rest := 1.0 - rand;
    assert rest * d > 0.0 by { assert rest > 0.0; }
    assert rand * d + rest * d == d;
  }

  /** `Math.random() * d`: the share of a span that a draw from [0, 1)
      selects. */
  function Scale(rand: real, d: real): (x: real)
    requires 0.0 <= rand < 1.0
    ensures d >= 0.0 ==> 0.0 <= x <= d
    ensures d > 0.0 ==> x < d
    ensures d == 0.0 ==> x == 0.0
  {
    if d > 0.0 then ScaleWithin(rand, d); ScaleShort(rand, d); rand * d
    else if d == 0.0 then ScaleWithin(rand, d); rand * d
    else rand * d
  }

  /** `Math.random() * (hi - lo) + lo`: a point of [lo, hi) when lo <= hi. */
  function DrawBetween(rand: real, lo: real, hi: real): (v: real)
    requires 0.0 <= rand < 1.0
    ensures lo <= hi ==> lo <= v && (v < hi || lo == hi)
    ensures lo == hi ==> v == lo
  {
    Scale(rand, hi - lo) + lo
  }
}

=== FILE: geometry.dfy ===
/** Axis-aligned boxes as the browser reports them for a laid-out element,
    and the strict overlap test both game variants use for the bird against
    a pipe. */
module Geometry {
  import opened Common

  /** A box in screen coordinates: x grows to the right, y grows downwards,
      so `top` is the smaller y and `bottom` the larger. */
  datatype Rect = Rect(left: real, top: real, right: real, bottom: real)

  function Width(r: Rect): real { r.right - r.left }

  function Height(r: Rect): real { r.bottom - r.top }

  /** A box with positive width and height. */
  predicate Proper(r: Rect) {
    r.left < r.right && r.top < r.bottom
  }

  /** Strict intersection on both axes: boxes that only share an edge or a
      corner do not overlap. */
  predicate Overlaps(a: Rect, b: Rect) {
    a.left < b.right && a.right > b.left && a.top < b.bottom && a.bottom > b.top
  }

  /** The point (x, y) lies strictly inside `r`. */
  predicate Inside(x: real, y: real, r: Rect) {
    r.left < x < r.right && r.top < y < r.bottom
  }

  /** `r` in the coordinates of a container whose own box is `origin`. */
  function RelativeTo(r: Rect, origin: Rect): (q: Rect)
    ensures Width(q) == Width(r) && Height(q) == Height(r)
    ensures q.left + origin.left == r.left && q.top + origin.top == r.top
  {
    Rect(r.left - origin.left, r.top - origin.top, r.right - origin.left, r.bottom - origin.top)
  }

  /** The two boxes of one obstacle pair: the pipe standing on the floor and
      the pipe hanging from the ceiling. */
  datatype PairBoxes = PairBoxes(bottom: Rect, top: Rect)

  /** The boxes reported for the i-th live pair; a pair whose elements are
      missing, or for which nothing was reported, has none. */
  function BoxAt(boxes: seq<Option<PairBoxes>>, i: nat): (o: Option<PairBoxes>)
    ensures o.Some? ==> i < |boxes| && boxes[i] == o
  {
    if i < |boxes| then boxes[i] else None
  }

  /** Two proper boxes overlap exactly when some point lies strictly inside
      both of them, so the four strict comparisons are the right test. */
  lemma OverlapsIffSharedInteriorPoint(a: Rect, b: Rect)
    requires Proper(a) && Proper(b)
    ensures Overlaps(a, b) <==> exists x: real, y: real :: Inside(x, y, a) && Inside(x, y, b)
  {
    if Overlaps(a, b) {
      var x := (MaxReal(a.left, b.left) + MinReal(a.right, b.right)) / 2.0;
      var y := (MaxReal(a.top, b.top) + MinReal(a.bottom, b.bottom)) / 2.0;
      assert Inside(x, y, a) && Inside(x, y, b);
    }
  }

  /** Boxes that touch along an edge do not collide. */
  lemma TouchingEdgesDoNotOverlap(a: Rect, b: Rect)
    requires a.right == b.left || a.left == b.right || a.bottom == b.top || a.top == b.bottom
    ensures !Overlaps(a, b)
  {
  }

  lemma OverlapsSymmetric(a: Rect, b: Rect)
    ensures Overlaps(a, b) <==> Overlaps(b, a)
  {
  }

  /** Re-expressing both boxes in a container's coordinates does not change
      whether they overlap. */
  lemma OverlapsInvariantUnderRelative(a: Rect, b: Rect, origin: Rect)
    ensures Overlaps(RelativeTo(a, origin), RelativeTo(b, origin)) <==> Overlaps(a, b)
  {
  }
}
